=== FILE: README.md ===
# Spellsource rules core in Dafny

This project models the rules core of the Spellsource card-game engine (a
Hearthstone-style collectible card game). It covers:

- the spell utilities of the engine: child spells and the output-card stack,
  card lookup and random card draws, the discover flow, random auto-play of a
  card, filter operations, board and graveyard queries, and kept enchantments;
- the hero entity of the older engine: armor, attack with a weapon, weapon
  ownership and deep cloning;
- the attribute-applied trigger, the discard event and the attribute aura;
- the combat and targeting rules that the special-card tests assert (Gurubashi
  Berserker, Faerie Dragon);
- the card-content helpers of the card tooling: the class colours, the id
  derived from a card name, and the breadth-first walk over a card's JSON with
  key inheritance.

The model is purely functional. Entities are immutable records and zones are a
map from entity id to zone. Java `null` is an `Option`. The random number
generator and the player-decision boundary (`requestAction`) are an `Oracle`
value: two streams of answers plus counters. Every operation says how many
draws or decisions it consumes, and every lemma holds for every oracle, so for
every possible random outcome and player choice. `castSpell` is modelled as a
tree of nested child casts, which is what the output-stack property is about.

Modules, one per concern:

| file | module | models |
|---|---|---|
| wrappers.dfy | `Wrappers` | `Option` for nullable values |
| oracle.dfy | `Oracle` | random draws and player decisions |
| entities.dfy | `Entities` | entity references, zones, attributes, entities |
| lists.dfy | `Lists` | order-preserving filter, distinct count, flattening |
| spells.dfy | `Spells` | the spell-descriptor arguments the utilities read |
| operations.dfy | `Operations` | `evaluateOperation` |
| child_spells.dfy | `ChildSpells` | both `castChildSpell` overloads and the output stack |
| card_lookup.dfy | `CardLookup` | `getCard`, `getSingleCard`, `getCards` (all overloads), `getCardFromContextOrDiscover` |
| discover.dfy | `Discover` | `discoverCard`, `postDiscover` |
| random_play.dfy | `RandomPlay` | `playCardRandomly` |
| board_queries.dfy | `BoardQueries` | `getBoardPosition`, list filters, `getValidTargets`, `getValidRandomTargets`, `highlanderDeck`, `howManyMinionsDiedThisTurn`, `processKeptEnchantments` |
| heroes.dfy | `Heroes` | `Hero` of the older engine |
| events.dfy | `Events` | `DiscardEvent` and the attribute-applied event |
| triggers.dfy | `Triggers` | `AttributeAppliedTrigger` |
| auras.dfy | `Auras` | `AttributeAura` |
| combat.dfy | `Combat` | the rules behind `testGurubashiBerserker` and `testFaerieDragon` |
| card_utils.dfy | `CardUtils` | `CLASS_MAPPING`, `name_to_id`, `walk_card` |

`playCardRandomly` sets RANDOM_CHOICES on the player before choosing an action
and removes it only on the path that executes the action. Every early `return
false` leaves the flag set, and so does the `return true` of a targeted spell
that has no valid target. `PlayCardRandomly` returns the resulting
RANDOM_CHOICES set, and the lemmas state which paths leave it set.

## Model

| member | source | states |
|---|---|---|
| Operations.EvaluateOperation | game/src/main/java/net/demilich/metastone/game/spells/SpellUtils.java:234-250 | EQUAL, GREATER, GREATER_OR_EQUAL, LESS and LESS_OR_EQUAL hold exactly when the comparison of actual and target falls in that operation's accepted outcomes; HAS holds exactly when actual is positive |
| Operations.ComplementaryOperations | game/src/main/java/net/demilich/metastone/game/spells/SpellUtils.java:240-247 | LESS is the negation of GREATER_OR_EQUAL and LESS_OR_EQUAL of GREATER, for all values |
| Operations.MirroredOperations | game/src/main/java/net/demilich/metastone/game/spells/SpellUtils.java:236-247 | swapping actual and target turns GREATER into LESS and GREATER_OR_EQUAL into LESS_OR_EQUAL; EQUAL is symmetric |
| Operations.HasIgnoresTarget | game/src/main/java/net/demilich/metastone/game/spells/SpellUtils.java:242-243 | HAS gives the same answer whatever the target value |
| ChildSpells.CastChildSpell | game/src/main/java/net/demilich/metastone/game/spells/SpellUtils.java:53-67 | the cast is a child cast for the same player and spell; its target is the spell's own target, else the inherited target, else NONE; a missing source becomes NONE, so no null reference reaches `castSpell` |
| ChildSpells.ExplicitTargetWins | game/src/main/java/net/demilich/metastone/game/spells/SpellUtils.java:55-59 | when the spell names a target, the inherited target has no influence on the cast |
| ChildSpells.CastChildSpellWithOutput | game/src/main/java/net/demilich/metastone/game/spells/SpellUtils.java:573-587 | nothing is cast exactly when the output is null, the output is in the GRAVEYARD, or the spell is null; otherwise the first cast sees the output pushed on top of the stack; every nested cast sees a strictly longer stack; afterwards the stack is what it was |
| ChildSpells.CastSpell | game/src/main/java/net/demilich/metastone/game/spells/SpellUtils.java:573-587 | a spell and all child casts it issues leave the output stack as they found it, and every cast they record sees the caller's stack as a prefix |
| ChildSpells.CastChildren | game/src/main/java/net/demilich/metastone/game/spells/SpellUtils.java:573-587 | a sequence of child casts with outputs leaves the stack unchanged, and every recorded cast sees the stack extended |
| CardLookup.GetCardFromContextOrDiscover | game/src/main/java/net/demilich/metastone/game/spells/SpellUtils.java:334-340 | when a card with the id is shown in some player's DISCOVER zone, the result is the first such card in player and zone order; only when none is shown is the catalogue consulted |
| CardLookup.FirstWithId | game/src/main/java/net/demilich/metastone/game/spells/SpellUtils.java:335-338 | finds the first card with the id, and nothing exactly when no card has it |
| CardLookup.GetSingleCard | game/src/main/java/net/demilich/metastone/game/spells/SpellUtils.java:290-303 | a null id gives null; an id equal to EVENT_SOURCE ignoring case gives the event source, one equal to OUTPUT ignoring case the output card, and every other id the DISCOVER-then-catalogue lookup |
| CardLookup.GetCard | game/src/main/java/net/demilich/metastone/game/spells/SpellUtils.java:277-280 | without a CARD argument there is no card; CARD equal to OUTPUT or EVENT_SOURCE ignoring case gives the output card or the event source; any other CARD id is looked up in the DISCOVER zones first, then in the catalogue |
| CardLookup.KeywordsIgnoreCase | game/src/main/java/net/demilich/metastone/game/spells/SpellUtils.java:290-303 | two spellings of a card id that differ only in letter case have the same upper-case form, and when that form is OUTPUT or EVENT_SOURCE both give the same card |
| CardLookup.GetCards | game/src/main/java/net/demilich/metastone/game/spells/SpellUtils.java:315-332 | with CARDS, one lookup per listed id in order; else with CARD, exactly one lookup; else no cards |
| CardLookup.CardsArgumentWins | game/src/main/java/net/demilich/metastone/game/spells/SpellUtils.java:317-321 | when CARDS is present, the CARD argument does not change the result |
| CardLookup.Candidates | game/src/main/java/net/demilich/metastone/game/spells/SpellUtils.java:625-634 | the candidates are the looked-up cards when there are any; otherwise the filtered cards one by one, in order, when a card source or filter is given; otherwise the target's source card, or none without a target |
| CardLookup.CandidatesFallBack | game/src/main/java/net/demilich/metastone/game/spells/SpellUtils.java:626-634 | the explicit cards are used when there are any; when there are none (no CARDS and no CARD, or an empty CARDS list), the filtered cards are used if a card source or filter is given, else the target's source card, else nothing |
| CardLookup.DrawCards | game/src/main/java/net/demilich/metastone/game/spells/SpellUtils.java:636-647 | count at least the number of candidates returns all of them with no draw; otherwise exactly max(count, 0) of them are drawn without replacement, one random draw each |
| CardLookup.GetCardsUpTo | game/src/main/java/net/demilich/metastone/game/spells/SpellUtils.java:625-648 | the result is all candidates, with no draw, when count covers them; otherwise max(count, 0) of them, one draw each; never a candidate more often than it occurs |
| CardLookup.GetCardsByValue | game/src/main/java/net/demilich/metastone/game/spells/SpellUtils.java:605-607 | with count the VALUE argument, 1 by default: all candidates with no draw when count covers them, otherwise max(count, 0) of them drawn one draw each, never a candidate more often than it occurs |
| Discover.PurgeDiscovered | game/src/main/java/net/demilich/metastone/game/spells/SpellUtils.java:399-407 | every offered card that is in DISCOVER moves to REMOVED_FROM_PLAY; no other entity changes zone |
| Discover.PostDiscover | game/src/main/java/net/demilich/metastone/game/spells/SpellUtils.java:385-410 | with no actions, nothing is chosen, drawn, asked or moved; otherwise exactly one offered action is chosen, by one random draw under RANDOM_CHOICES or else by one player decision; every offered card is purged and passed to `removeCard`, whether chosen or not |
| Discover.Copies | game/src/main/java/net/demilich/metastone/game/spells/SpellUtils.java:365-371 | the copies keep each card's card id, belong to the discovering player, and take consecutive fresh ids |
| Discover.PlaceCopies | game/src/main/java/net/demilich/metastone/game/spells/SpellUtils.java:368-372 | the copies enter DISCOVER and the next id moves past them; no existing entity changes zone |
| Discover.Offers | game/src/main/java/net/demilich/metastone/game/spells/SpellUtils.java:374-378 | action i offers copy i with action id i and the spell's CARD set to that copy's card id |
| Discover.DiscoverCard | game/src/main/java/net/demilich/metastone/game/spells/SpellUtils.java:363-382 | a discover allocates one fresh id per offered card and keeps every zone entry below the next id |
| Discover.DiscoverNothingOffered | game/src/main/java/net/demilich/metastone/game/spells/SpellUtils.java:386-388 | discovering from no cards chooses nothing and consumes neither a draw nor a decision |
| Discover.DiscoverChoosesOneCopy | game/src/main/java/net/demilich/metastone/game/spells/SpellUtils.java:363-395 | the chosen action offers a copy of one of the given cards under a fresh id, never an original, with the spell's CARD set to it |
| Discover.DiscoverPurgesCopies | game/src/main/java/net/demilich/metastone/game/spells/SpellUtils.java:399-407 | after a discover every copy is in REMOVED_FROM_PLAY and every pre-existing entity keeps its zone |
| RandomPlay.ChooseAction | game/src/main/java/net/demilich/metastone/game/spells/SpellUtils.java:109-129 | an ordinary card plays its action and a choose-one card under BOTH_CHOOSE_ONE_OPTIONS its both-options action, without a draw; a random choice draws once and picks one of the options, and throws exactly when there are none; a recorded CHOICE picks that option and throws exactly when it is outside the options; with no choice and not played from hand or deck there is no action |
| RandomPlay.PlaceOnBoard | game/src/main/java/net/demilich/metastone/game/spells/SpellUtils.java:138-148 | a minion not summoned rightmost takes one draw and is aimed at an existing minion or keeps the default slot; otherwise nothing changes; in every case only the action's target can differ |
| RandomPlay.ResolveBattlecry | game/src/main/java/net/demilich/metastone/game/spells/SpellUtils.java:150-192 | the play fails exactly when battlecries are resolved, the action has none and the actor is missing; otherwise only the action's battlecry can change: it is cleared when battlecries are not resolved, kept when it needs no target, cleared when the casting player has no valid target, and otherwise is the specified battlecry aimed at one of those targets by one draw |
| RandomPlay.ResolveSpellTarget | game/src/main/java/net/demilich/metastone/game/spells/SpellUtils.java:193-206 | a targeted spell fizzles exactly when it has no valid target; otherwise it is aimed at one valid target by one draw; an untargeted spell is unchanged |
| RandomPlay.PlayCardRandomly | game/src/main/java/net/demilich/metastone/game/spells/SpellUtils.java:89-223 | only a successful play executes an action, for the player and with the hand flag given, and clears the player's RANDOM_CHOICES; a play that succeeds without executing is a spell or hero power whose chosen action needs a target and has no valid one, and it leaves the flag set; a play that throws is a choose-one card and leaves the flag set |
| RandomPlay.SourceOutOfPlayDoesNothing | game/src/main/java/net/demilich/metastone/game/spells/SpellUtils.java:101-103 | with only-while-source-in-play and the source gone, the play fails with no draw and no flag set |
| RandomPlay.NoActionLeavesFlagSet | game/src/main/java/net/demilich/metastone/game/spells/SpellUtils.java:107-134 | when no action is produced the play fails and RANDOM_CHOICES stays set |
| RandomPlay.BadOptionIndexThrows | game/src/main/java/net/demilich/metastone/game/spells/SpellUtils.java:119-125 | a choose-one card with no options to draw from, or with a CHOICE outside its options, makes the play throw with RANDOM_CHOICES left on the player |
| RandomPlay.UnsupportedCardLeavesFlagSet | game/src/main/java/net/demilich/metastone/game/spells/SpellUtils.java:209-212 | a card that is neither actor, spell nor hero power fails and leaves RANDOM_CHOICES set |
| RandomPlay.MissingActorLeavesFlagSet | game/src/main/java/net/demilich/metastone/game/spells/SpellUtils.java:156-162 | an actor card whose actor is missing fails and leaves RANDOM_CHOICES set |
| RandomPlay.TargetedSpellWithoutTargetsIsConsumed | game/src/main/java/net/demilich/metastone/game/spells/SpellUtils.java:195-205 | a targeted spell or hero power with no valid target counts as played, executes nothing, and leaves RANDOM_CHOICES set |
| RandomPlay.BattlecryWithoutTargetsStillPlaysActor | game/src/main/java/net/demilich/metastone/game/spells/SpellUtils.java:150-186 | an actor whose specified battlecry (the action's own, else its actor's) needs a target while the casting player has none is still played, with exactly the placed action whose battlecry is cleared, and the flag is cleared |
| RandomPlay.BattlecryTargetIsValid | game/src/main/java/net/demilich/metastone/game/spells/SpellUtils.java:174-186 | an actor whose specified battlecry needs a target and has valid targets is played with the battlecry aimed at one of the casting player's valid targets, and the flag is cleared |
| RandomPlay.UnresolvedBattlecryIsCleared | game/src/main/java/net/demilich/metastone/game/spells/SpellUtils.java:188-192 | when battlecries are not resolved, an executed actor's battlecry is always cleared |
| RandomPlay.SpellTargetIsValid | game/src/main/java/net/demilich/metastone/game/spells/SpellUtils.java:195-200 | an executed targeted spell is aimed at one of the player's valid targets |
| RandomPlay.SpellIsExecuted | game/src/main/java/net/demilich/metastone/game/spells/SpellUtils.java:193-222 | a spell or hero power that needs no target, or has a valid one, is played and executed for the player with the hand flag given, as its chosen action with at most the target changed (unchanged when no target is needed), and RANDOM_CHOICES is lifted |
| RandomPlay.ActorIsExecuted | game/src/main/java/net/demilich/metastone/game/spells/SpellUtils.java:136-222 | an actor that does not stop on a missing actor is played and executed for the player with the hand flag given, as its chosen action with at most its target and battlecry changed, and RANDOM_CHOICES is lifted |
| BoardQueries.GetBoardPosition | game/src/main/java/net/demilich/metastone/game/spells/SpellUtils.java:517-540 | an absolute position other than -1 wins; any other defined result needs a relative position and a placed source, and is the source's index or the one after it |
| BoardQueries.RightIsOneAfterLeft | game/src/main/java/net/demilich/metastone/game/spells/SpellUtils.java:532-536 | with a placed source, LEFT is the source's own index and RIGHT is exactly one more |
| BoardQueries.NoRelativeMeansUndefined | game/src/main/java/net/demilich/metastone/game/spells/SpellUtils.java:523-538 | without an absolute position, a missing or other relative position or an unplaced source gives -1 |
| BoardQueries.FilterOrAll | game/src/main/java/net/demilich/metastone/game/spells/SpellUtils.java:260-268 | no filter returns the list itself; a filter keeps exactly the accepted cards, each as often as in the source, in source order |
| BoardQueries.GetCardsMatching | game/src/main/java/net/demilich/metastone/game/spells/SpellUtils.java:260-268 | without a filter the result is the whole list; with one it holds exactly the accepted cards, each as often as in the source, in source order |
| BoardQueries.GetValidTargets | game/src/main/java/net/demilich/metastone/game/spells/SpellUtils.java:481-492 | without a filter the result is the whole list of targets; with one it holds exactly the targets the filter matches, each as often as in the list, in list order |
| BoardQueries.GetValidRandomTargets | game/src/main/java/net/demilich/metastone/game/spells/SpellUtils.java:469-479 | the result holds exactly the targets that are not destroyed, heroes always included, each as often as in the list, in list order |
| BoardQueries.HighlanderDeck | game/src/main/java/net/demilich/metastone/game/spells/SpellUtils.java:494-496 | a deck is highlander exactly when its number of distinct card ids equals its size |
| BoardQueries.HighlanderMeansNoDuplicateIds | game/src/main/java/net/demilich/metastone/game/spells/SpellUtils.java:494-496 | a deck is highlander exactly when no two of its cards share a card id |
| Lists.CountDistinct | game/src/main/java/net/demilich/metastone/game/spells/SpellUtils.java:495 | the count is the number of distinct elements: at most the length, and equal to it exactly when no element repeats |
| BoardQueries.CountDiedInGraveyard | game/src/main/java/net/demilich/metastone/game/spells/SpellUtils.java:503-512 | the loop over one graveyard counts exactly its minions whose DIED_ON_TURN is the current turn |
| BoardQueries.HowManyMinionsDiedThisTurn | game/src/main/java/net/demilich/metastone/game/spells/SpellUtils.java:499-515 | the count over all players' graveyards is the number of minions there that died this turn |
| BoardQueries.ProcessKeptEnchantments | game/src/main/java/net/demilich/metastone/game/spells/SpellUtils.java:552-558 | with KEEPS_ENCHANTMENTS, each of POISONOUS, LIFESTEAL, WINDFURY, ATTACK_BONUS and HP_BONUS that the target has is copied into the map with the target's value; every other entry is untouched; without it the map is returned unchanged |
| Lists.Filter | game/src/main/java/net/demilich/metastone/game/spells/SpellUtils.java:260-268 | an element is in the result exactly when it is in the source and accepted |
| Lists.FilterCounts | game/src/main/java/net/demilich/metastone/game/spells/SpellUtils.java:262-265 | each accepted element occurs as often as in the source and no rejected element occurs |
| Lists.FilterIsSubsequence | game/src/main/java/net/demilich/metastone/game/spells/SpellUtils.java:262-265 | the result keeps the source order |
| Heroes.ModifyArmor | src/net/pferdimanzug/hearthstone/analyzer/game/entities/heroes/Hero.java:62-66 | armor is never negative afterwards, and nothing but armor changes |
| Heroes.ModifyArmorClampsAtZero | src/net/pferdimanzug/hearthstone/analyzer/game/entities/heroes/Hero.java:62-66 | without overflow, armor becomes armor plus the change, or zero when that is negative |
| Heroes.GetAttack | src/net/pferdimanzug/hearthstone/analyzer/game/entities/heroes/Hero.java:36-43 | without a weapon the attack is the hero's own; with one it is the hero's own plus the weapon's |
| Heroes.SetWeapon | src/net/pferdimanzug/hearthstone/analyzer/game/entities/heroes/Hero.java:68-73 | the hero holds the new weapon, which now has the hero's owner; clearing the weapon changes only the hero; no other weapon changes |
| Heroes.Clone | src/net/pferdimanzug/hearthstone/analyzer/game/entities/heroes/Hero.java:22-30 | the clone equals the hero except that its weapon and hero power are new objects, equal in value, under unused keys; existing objects are unchanged |
| Heroes.CloneIsIndependent | src/net/pferdimanzug/hearthstone/analyzer/game/entities/heroes/Hero.java:22-30 | whatever is done to the clone's weapon, the original's weapon and attack stay the same |
| Heroes.ClassAndTypeAreFixed | src/net/pferdimanzug/hearthstone/analyzer/game/entities/heroes/Hero.java:11-48 | no operation changes the hero class, and a hero's entity type is always HERO |
| Events.NewDiscardEvent | game/src/main/java/net/demilich/metastone/game/events/DiscardEvent.java:10-32 | a discard event has type DISCARD, targets the discarded card, is aimed at the given player with source player -1, and is client-interested |
| Events.DiscardTargetIsTheCard | game/src/main/java/net/demilich/metastone/game/events/DiscardEvent.java:15-22 | two discard events have the same target exactly when they were made with the same card |
| Triggers.Fire | game/src/main/java/net/demilich/metastone/game/spells/trigger/AttributeAppliedTrigger.java:18-26 | firing requires the event's attribute to be REQUIRED_ATTRIBUTE and the target type to match TARGET_ENTITY_TYPE when set |
| Triggers.FireExactly | game/src/main/java/net/demilich/metastone/game/spells/trigger/AttributeAppliedTrigger.java:18-26 | the trigger fires if and only if the attribute matches and the type constraint is absent or met |
| Triggers.FireIgnoresHost | game/src/main/java/net/demilich/metastone/game/spells/trigger/AttributeAppliedTrigger.java:19-25 | the host entity plays no part in the decision |
| Triggers.DroppingTypeOnlyWidens | game/src/main/java/net/demilich/metastone/game/spells/trigger/AttributeAppliedTrigger.java:23-24 | removing TARGET_ENTITY_TYPE can turn a refusal into a firing but never the reverse |
| Triggers.NoRequiredAttributeNeverFires | game/src/main/java/net/demilich/metastone/game/spells/trigger/AttributeAppliedTrigger.java:21-24 | with REQUIRED_ATTRIBUTE unset the identity comparison with null never succeeds |
| Triggers.DiscardNeverReacts | game/src/main/java/net/demilich/metastone/game/spells/trigger/AttributeAppliedTrigger.java:28-31 | the trigger is offered only ATTRIBUTE_APPLIED events, so a discard never sets it off |
| Triggers.InterestedIn | game/src/main/java/net/demilich/metastone/game/spells/trigger/AttributeAppliedTrigger.java:28-31 | the event type the trigger asks for is the type of exactly the attribute-applied events |
| Auras.NewAttributeAura | game/src/main/java/net/demilich/metastone/game/spells/aura/AttributeAura.java:32-40 | the trigger is the secondary trigger when given, else end-of-sequence; the apply spell adds and the remove spell removes the descriptor's attribute; target, filter and condition pass through and the descriptor is kept |
| Auras.ApplyThenRemoveRestores | game/src/main/java/net/demilich/metastone/game/spells/aura/AttributeAura.java:34-35 | entering and leaving the aura gives an entity back exactly the attributes it had, when it did not hold the aura attribute before |
| Auras.AuraLeavesPermanentAttributes | game/src/main/java/net/demilich/metastone/game/spells/aura/AttributeAura.java:13-15 | an aura never grants or removes an attribute without the AURA_ prefix, so permanently granted attributes survive it |
| Combat.Summon | test/SpecialCardTests.java:42-43 | a summoned minion starts at its base attack and full health |
| Combat.Fight | test/SpecialCardTests.java:46-52 | in a fight each minion loses the other's pre-combat attack, and a defender that took damage gains its bonus afterwards |
| Combat.BerserkerGrowsEachFight | test/SpecialCardTests.java:42-58 | after one fight the attacker has lost BASE and the berserker the attacker's attack, and its attack is BASE + BONUS; after a second the attacker has lost 2 BASE + BONUS, the berserker twice the attacker's attack, and its attack is BASE + 2 BONUS |
| Combat.ValidTargets | test/SpecialCardTests.java:80-90 | a character is a valid target exactly when the requirement allows its side and, for spells and hero powers, it is not elusive |
| Combat.ElusiveCanBeAttacked | test/SpecialCardTests.java:80-83 | an elusive enemy is still a valid target of a physical attack |
| Combat.ElusiveIsNeverSingledOut | test/SpecialCardTests.java:86-90 | an elusive character is never a valid target of a spell or hero power |
| Combat.AreaDamage | test/SpecialCardTests.java:92-97 | area damage changes the hp of every enemy minion, elusive or not, and nothing else |
| Combat.AreaDamageHitsElusive | test/SpecialCardTests.java:92-97 | nonzero area damage changes an elusive enemy minion's hp |
| Combat.DragonCanBeAttacked | test/SpecialCardTests.java:80-83 | computed for the attacking mage's id, as the test's comment intends, a physical attack has two targets: the enemy hero and the dragon |
| Combat.AttackTargetsAsWritten | test/SpecialCardTests.java:80-83 | computed for the warrior's id, as the test does, a physical attack has two targets, the mage's hero and minion, and the dragon is not among them |
| Combat.DragonEludesHeroPower | test/SpecialCardTests.java:86-90 | on the test's board a hero power has three targets, both heroes and the other minion, and not the dragon |
| Combat.DragonTakesAreaDamage | test/SpecialCardTests.java:92-97 | on the test's board Arcane Explosion changes the dragon's hp |
| CardUtils.ClassMappingColours | cards/utils.py:9-22 | the mapping covers the ten coloured classes plus NEUTRAL and DREAM; NEUTRAL and DREAM both map to ANY; the ten others have pairwise distinct colours, none of them ANY |
| CardUtils.NameToId | cards/utils.py:67-68 | the id is the lower-cased card type, an underscore, then the name lower-cased with every character outside a-z, A-Z, 0-9 replaced by an underscore; its length is the type's length plus one plus the name's, and the name part uses only a-z, 0-9 and underscore |
| CardUtils.NameToIdIgnoresCase | cards/utils.py:67-68 | names that differ only in letter case give the same id |
| CardUtils.NameToIdIdempotent | cards/utils.py:67-68 | deriving an id again from the name part of an id gives the same id |
| CardUtils.NameToIdSamples | cards/utils.py:67-68 | the default arguments give "_", and "Arcane Shot!" as a SPELL gives "spell_arcane_shot_" |
| CardUtils.Lookup | cards/utils.py:51-52 | a key has a value exactly when some entry has that key, and the value found is stored under it |
| CardUtils.Set | cards/utils.py:51-52 | after storing a value under a key, that key gives the value, other keys are unaffected, and existing keys keep their places |
| CardUtils.Update | cards/utils.py:51-52 | after `copy.update(child)` every key of the child gives the child's value, every other key gives the parent's, and the parent's keys keep their order |
| CardUtils.ItemChildren | cards/utils.py:55-59 | the objects in a list, and nothing else in it, are queued in list order, the i-th queued item being the i-th object under the list's key with the parent's inherits overlaid by its entries |
| CardUtils.EntryChildren | cards/utils.py:48-59 | the visits queued for a dict are exactly its object values and the objects inside its list values, each tagged with its key and with the parent's inherits overlaid by its own entries |
| CardUtils.WalkCard | cards/utils.py:43-47 | the first item yielded is the card with an empty parent, no key, and the card itself as inherits; the rest is the walk from the card's own nested objects |
| CardUtils.Walk | cards/utils.py:43-59 | the walk yields nothing exactly when the queue is empty; otherwise it yields the head of the queue first and at least as many items as are queued |
| CardUtils.WalkYieldsQueueFirst | cards/utils.py:43-59 | the walk is first-in first-out: everything queued is yielded, in order, before anything queued after it |
| CardUtils.TopLevelObjectsComeFirst | cards/utils.py:43-59 | the card's own nested objects are yielded right after the card, in key order, before anything deeper |
| CardUtils.WalkCardLength | cards/utils.py:48-59 | the walk yields exactly as many items as there are objects reachable through object values and objects directly inside lists |
| CardUtils.WalkCardOwnKeysWin | cards/utils.py:50-53 | in every yielded item, the object's own keys give its own values in inherits |
| CardUtils.WalkLinksParents | cards/utils.py:48-59 | every yielded object after the first was queued by a yielded parent, under one of that parent's keys, and inherits the parent's inherits overlaid with its own entries |

## Left out

- RNG internals (`random`, `getRandom`, `removeRandom`) and the suspension behind `requestAction`: replaced by the `Oracle` value. Lemmas quantify over every oracle.
- The bodies of `castSpell`, `action.execute` and `innerExecute`: a cast is recorded with the request it receives, and an execution with the action, player and hand flag. `GameLogic.getValidTargets` is an input function of the table.
- `desc.getValue` for VALUE and BOARD_POSITION_ABSOLUTE is a literal argument. `desc.getFilteredCards` and `getSourceCard` are inputs.
- `getSpellDiscover` and `getGroup`: their card construction and catalogue lookup are outside this model.
- Logging, and `GameLogic.removeCard`: the discover result lists the ids handed to `removeCard`, in order; what `removeCard` does is not modelled.
- An array index out of bounds in choose-one play is modelled: `RandomPlay.PlayCardRandomly` returns the `Threw` outcome. `random(0)` on a card without options is counted as such a throw, since `GameLogic.random` is not part of this model. Other exceptions (`ClassCastException`, `NullPointerException`) are not modelled. Where the source would throw one of those, the model either requires the well-typed case (`Triggers.Fire` requires an attribute-applied event, `BoardQueries.GetValidRandomTargets` requires actors) or takes the lookup as total.
- `Entity.hasAttribute`, `getAttributeValue`, `Card.isActor`, `isSpell` and `isHeroPower` are not part of this model. Attributes are a map; a present key counts as having the attribute, and an absent one reads as 0. The card kinds are flags on the card.
- The SPELL argument of the discover descriptor is passed in directly.
- `AddAttributeSpell` and `RemoveAttributeSpell` are not part of this model: adding stores the attribute with value 1, removing deletes it. The aura's choice of covered entities (`Aura`) is left out.
- `iter_cards` and `write_card`: filesystem walking and JSON input and output.
- The concurrency, network, UI and process-launch files of the repository, and the interfaces without implementation.
- The combat model covers only what the special-card tests assert: simultaneous damage, growth on damage, and elusiveness. Armor, divine shield, death and mana are not modelled. Player ids are explicit: targets are computed for the player id passed in, as `getValidTargets` does.
- Heroes.ModifyArmor: armor and its change are 32-bit Java ints, so the sum wraps. The contract promises non-negative armor for every input, but the exact `max(armor + delta, 0)` only when the sum does not overflow (Heroes.ModifyArmorClampsAtZero).
- Heroes.GetAttack: the sum with the weapon's attack is stated exactly only when it does not overflow 32 bits.
- CardUtils.NameToId: only ASCII letters are lower-cased. Python's `str.lower` also folds other letters, so the model is exact for ASCII names.
- CardUtils.Lookup: for a key stored twice the last entry wins. This is what successive assignments leave; JSON objects loaded with an ordered-dict hook have unique keys anyway.
- CardLookup.GetSingleCard: Java's `toUpperCase` is Unicode- and locale-aware, while the model upper-cases only ASCII letters. Ids with non-ASCII letters that Java would fold into OUTPUT or EVENT_SOURCE (such as `event_ſource`, whose long s Java upper-cases to S) are not recognised as keywords.
- CardLookup.GetCard: it resolves the CARD id through `GetSingleCard`, so it has the same ASCII-only keyword comparison.
- CardLookup.KeywordsIgnoreCase: two ids count as equal ignoring case only when they differ in ASCII letters; case variants that differ in other letters are not covered.
- ChildSpells.CastChildSpellWithOutput: the source pushes and pops the output without `try`/`finally`, so the stack is balanced only when `castSpell` returns normally. The model has no exceptional return, and the balance is promised for normal returns only.
- CardUtils.WalkCard: `walk_card` is a lazy generator that yields the live dictionaries. A caller that mutates a yielded object before the walk resumes changes what is queued later; the model yields values and does not cover such mutation.
- Triggers.NoRequiredAttributeNeverFires: the model's attribute-applied event always carries an attribute. An event whose attribute is null would, in Java, satisfy `null == null` and fire with REQUIRED_ATTRIBUTE unset; such events are not modelled.

## Findings

| source | as written | input that shows it | evidently intended | confidence | as-written member | corrected member |
|---|---|---|---|---|---|---|
| test/SpecialCardTests.java:81 | the attack's targets are computed with `getValidTargets(warrior.getId(), attackAction)`, although the attacker is the mage's minion | the test's board: mage hero and minion, warrior hero and Faerie Dragon | the targets of the mage's attack, `getValidTargets(mage.getId(), attackAction)`: the warrior hero and the dragon, so that the size check of 2 is about the dragon | not executed | Combat.AttackTargetsAsWritten | Combat.DragonCanBeAttacked |

=== FILE: auras.dfy ===
/**
 * `AttributeAura`: an aura that grants one attribute to the entities it covers,
 * by an add-attribute spell when an entity enters the aura and a remove-attribute
 * spell when it leaves.
 */
module Auras {
  import opened Wrappers
  import opened Entities

  /** The trigger that makes the aura re-evaluate what it covers. */
  datatype AuraTrigger = WillEndSequence | Secondary(triggerName: string)

  datatype AuraDesc = AuraDesc(
    attribute: Attribute,
    secondaryTrigger: Option<string>,
    target: EntityReference,
    filter: Option<string>,
    condition: Option<string>)

  datatype AttributeSpell = AddAttribute(attribute: Attribute) | RemoveAttribute(attribute: Attribute)

  datatype Aura = Aura(
    trigger: AuraTrigger,
    applySpell: AttributeSpell,
    removeSpell: AttributeSpell,
    target: EntityReference,
    filter: Option<string>,
    condition: Option<string>,
    desc: AuraDesc)

  const AuraPrefix := "AURA_"

  /** The documented convention: aura attributes carry the `AURA_` prefix. */
  predicate IsAuraAttribute(a: Attribute) {
    |a.name| >= |AuraPrefix| && a.name[..|AuraPrefix|] == AuraPrefix
  }

  /** The effect of an attribute spell on one entity's attribute map (booleans stored as 1). */
  function Cast(spell: AttributeSpell, attributes: map<Attribute, int>): (r: map<Attribute, int>)
    ensures spell.AddAttribute? ==> r.Keys == attributes.Keys + {spell.attribute} && r[spell.attribute] == 1
    ensures spell.RemoveAttribute? ==> r.Keys == attributes.Keys - {spell.attribute}
    ensures forall a :: a in attributes && a != spell.attribute ==> a in r && r[a] == attributes[a]
  {
    match spell
    case AddAttribute(a) => attributes[a := 1]
    case RemoveAttribute(a) => attributes - {a}
  }

  /**
   * `new AttributeAura(desc)`: trigger, spells, target, filter and condition all
   * come from the descriptor, which the aura keeps.
   */
  function NewAttributeAura(desc: AuraDesc): (aura: Aura)
    ensures desc.secondaryTrigger.Some? ==> aura.trigger == Secondary(desc.secondaryTrigger.value)
    ensures desc.secondaryTrigger.None? ==> aura.trigger == WillEndSequence
    ensures aura.applySpell == AddAttribute(desc.attribute) && aura.removeSpell == RemoveAttribute(desc.attribute)
    ensures aura.target == desc.target && aura.filter == desc.filter && aura.condition == desc.condition
    ensures aura.desc == desc
  {
    var trigger := if desc.secondaryTrigger.Some? then Secondary(desc.secondaryTrigger.value) else WillEndSequence;
    Aura(trigger, AddAttribute(desc.attribute), RemoveAttribute(desc.attribute), desc.target, desc.filter, desc.condition, desc)
  }

  /**
   * Entering and then leaving the aura gives an entity back exactly the attributes
   * it had, provided it did not already hold the aura's attribute.
   */
  lemma ApplyThenRemoveRestores(desc: AuraDesc, attributes: map<Attribute, int>)
    requires desc.attribute !in attributes
    ensures var aura := NewAttributeAura(desc);
      Cast(aura.removeSpell, Cast(aura.applySpell, attributes)) == attributes
  {
    var aura := NewAttributeAura(desc);
    var applied := Cast(aura.applySpell, attributes);
    var removed := Cast(aura.removeSpell, applied);
    assert removed.Keys == attributes.Keys;
  }

  /**
   * Why the prefix matters: an aura never grants or takes away an attribute without
   * the `AURA_` prefix, so a permanently granted attribute survives the aura ending.
   */
  lemma AuraLeavesPermanentAttributes(desc: AuraDesc, attributes: map<Attribute, int>, permanent: Attribute)
    requires IsAuraAttribute(desc.attribute) && !IsAuraAttribute(permanent)
    ensures var aura := NewAttributeAura(desc);
      && (permanent in Cast(aura.applySpell, attributes) <==> permanent in attributes)
      && (permanent in Cast(aura.removeSpell, attributes) <==> permanent in attributes)
      && (permanent in attributes ==> Cast(aura.removeSpell, attributes)[permanent] == attributes[permanent])
  {
  }
}

=== FILE: board_queries.dfy ===
/**
 * The list and board helpers of `SpellUtils`: `getBoardPosition`, the list filters
 * `getCards(CardList, Predicate)`, `getValidTargets` and `getValidRandomTargets`,
 * `highlanderDeck`, `howManyMinionsDiedThisTurn` and `processKeptEnchantments`.
 */
module BoardQueries {
  import opened Wrappers
  import opened Entities
  import opened Spells
  import opened Lists

  /** The value -1 the source uses for an undefined board position. */
  const Undefined := -1

  /**
   * `getBoardPosition`, with `sourceIndex` the source minion's index on the board
   * (-1 when it has none). An absolute position other than -1 wins; otherwise LEFT
   * means the source's own index and RIGHT the index after it; everything else is -1.
   */
  function GetBoardPosition(spell: SpellDesc, sourceIndex: int): (r: int)
    ensures spell.boardPositionAbsolute.GetOr(Undefined) != Undefined ==> r == spell.boardPositionAbsolute.value
    ensures r != Undefined && spell.boardPositionAbsolute.GetOr(Undefined) == Undefined ==>
      sourceIndex != Undefined && spell.boardPositionRelative.Some? &&
      (r == sourceIndex || r == sourceIndex + 1)
  {
    var absolute := spell.boardPositionAbsolute.GetOr(Undefined);
    if absolute != Undefined then absolute
    else if spell.boardPositionRelative.None? then Undefined
    else if sourceIndex == Undefined then Undefined
    else
      match spell.boardPositionRelative.value
      case Left => sourceIndex
      case Right => sourceIndex + 1
      case OtherPosition => Undefined
  }

  /** With no absolute position and a placed source, RIGHT is exactly one slot after LEFT. */
  lemma RightIsOneAfterLeft(spell: SpellDesc, sourceIndex: int)
    requires spell.boardPositionAbsolute.GetOr(Undefined) == Undefined && sourceIndex != Undefined
    ensures GetBoardPosition(spell.(boardPositionRelative := Some(Right)), sourceIndex)
         == GetBoardPosition(spell.(boardPositionRelative := Some(Left)), sourceIndex) + 1
    ensures GetBoardPosition(spell.(boardPositionRelative := Some(Left)), sourceIndex) == sourceIndex
  {
  }

  /** Without a relative position, or with an unplaced source, only an absolute position gives a slot. */
  lemma NoRelativeMeansUndefined(spell: SpellDesc, sourceIndex: int)
    requires spell.boardPositionAbsolute.GetOr(Undefined) == Undefined
    requires spell.boardPositionRelative.None? || sourceIndex == Undefined
      || spell.boardPositionRelative == Some(OtherPosition)
    ensures GetBoardPosition(spell, sourceIndex) == Undefined
  {
  }

  /**
   * `r` is `xs` filtered: with no filter all of `xs`; otherwise exactly the elements
   * the filter accepts, each as often as in `xs`, in the order of `xs`.
   */
  ghost predicate KeepsExactly<T>(r: seq<T>, xs: seq<T>, filter: Option<T -> bool>) {
    if filter.None? then r == xs
    else
      && (forall x :: x in r ==> x in xs && filter.value(x))
      && (forall x :: x in xs ==> multiset(r)[x] == (if filter.value(x) then multiset(xs)[x] else 0))
      && IsSubsequence(r, xs)
  }

  /** Filtering with an optional filter, the shared core of `getCards(CardList, Predicate)` and `getValidTargets`. */
  function FilterOrAll<T>(xs: seq<T>, filter: Option<T -> bool>): (r: seq<T>)
    ensures KeepsExactly(r, xs, filter)
  {
    if filter.None? then xs
    else
      FilterCounts(xs, filter.value);
      FilterIsSubsequence(xs, filter.value);
      Filter(xs, filter.value)
  }

  /** `getCards(source, filter)`: a new list of the cards the filter keeps (all of them without a filter). */
  method GetCardsMatching(cards: seq<Entity>, filter: Option<Entity -> bool>) returns (result: seq<Entity>)
    ensures KeepsExactly(result, cards, filter)
  {
    var keep: Entity -> bool := if filter.None? then (c: Entity) => true else filter.value;
    result := [];
    for i := 0 to |cards|
      invariant result == Filter(cards[..i], keep)
    {
      assert cards[..i + 1] == cards[..i] + [cards[i]];
      FilterAppend(cards[..i], [cards[i]], keep);
      FilterSingleton(cards[i], keep);
      if keep(cards[i]) {
        result := result + [cards[i]];
      }
    }
    assert cards[..|cards|] == cards;
    if filter.None? {
      FilterKeepingAll(cards, keep);
    } else {
      FilterCounts(cards, keep);
      FilterIsSubsequence(cards, keep);
    }
  }

  /**
   * `getValidTargets(context, player, allTargets, filter)`, the filter's `matches` as a
   * function: the list itself without a filter, else the targets it matches, in order.
   */
  function GetValidTargets(allTargets: seq<Entity>, filter: Option<Entity -> bool>): (r: seq<Entity>)
    ensures KeepsExactly(r, allTargets, filter)
  {
    FilterOrAll(allTargets, filter)
  }

  predicate IsActor(e: Entity) {
    e.entityType == HeroType || e.entityType == MinionType || e.entityType == WeaponType
  }

  /** The random-target test: an actor that is not destroyed, or any hero. */
  predicate RandomTargetable(e: Entity) {
    !e.destroyed || e.entityType == HeroType
  }

  /**
   * `getValidRandomTargets`: the targets that are not destroyed, heroes always
   * included, in order. The source casts every target to an actor.
   */
  function GetValidRandomTargets(targets: seq<Entity>): (r: seq<Entity>)
    requires forall e :: e in targets ==> IsActor(e)
    ensures forall e :: e in r ==> e in targets && (!e.destroyed || e.entityType == HeroType)
    ensures forall e :: e in targets && e.entityType == HeroType ==> e in r
    ensures forall e :: e in targets && !e.destroyed ==> e in r
    ensures IsSubsequence(r, targets)
    ensures KeepsExactly(r, targets, Some(RandomTargetable))
  {
    FilterCounts(targets, RandomTargetable);
    FilterIsSubsequence(targets, RandomTargetable);
    Filter(targets, RandomTargetable)
  }

  /** The card ids of a deck, in deck order. */
  function CardIds(deck: seq<Entity>): (ids: seq<string>)
    ensures |ids| == |deck|
    ensures forall i :: 0 <= i < |deck| ==> ids[i] == deck[i].cardId
  {
    seq(|deck|, i requires 0 <= i < |deck| => deck[i].cardId)
  }

  /** `highlanderDeck`: the number of distinct card ids equals the deck size. */
  function HighlanderDeck(deck: seq<Entity>): (r: bool)
    ensures r <==> |set id | id in CardIds(deck)| == |deck|
  {
    CountDistinct(CardIds(deck)) == |deck|
  }

  /** A deck is highlander exactly when no two of its cards share a card id. */
  lemma HighlanderMeansNoDuplicateIds(deck: seq<Entity>)
    ensures HighlanderDeck(deck) <==>
      forall i, j :: 0 <= i < j < |deck| ==> deck[i].cardId != deck[j].cardId
  {
    var ids := CardIds(deck);
    assert NoDuplicates(ids) <==> forall i, j :: 0 <= i < j < |deck| ==> deck[i].cardId != deck[j].cardId;
  }

  /** A minion in a graveyard whose DIED_ON_TURN (0 when absent) is `turn`. */
  predicate DiedOnTurn(turn: int, e: Entity) {
    e.entityType == MinionType && e.AttributeValue(Entities.DiedOnTurn) == turn
  }

  /** The test above as a function value, for filtering. */
  function DiedThisTurn(turn: int): Entity -> bool {
    e => DiedOnTurn(turn, e)
  }

  /** The inner loop of `howManyMinionsDiedThisTurn`: the count for one graveyard. */
  method CountDiedInGraveyard(turn: int, graveyard: seq<Entity>) returns (count: nat)
    ensures count == |Filter(graveyard, DiedThisTurn(turn))|
  {
    count := 0;
    var k := 0;
    while k < |graveyard|
      invariant 0 <= k <= |graveyard|
      invariant count == |Filter(graveyard[..k], DiedThisTurn(turn))|
    {
      FilterSnocCount(graveyard[..k], graveyard[k], DiedThisTurn(turn));
      assert graveyard[..k + 1] == graveyard[..k] + [graveyard[k]];
      if graveyard[k].entityType == MinionType && graveyard[k].AttributeValue(Entities.DiedOnTurn) == turn {
        count := count + 1;
      }
      k := k + 1;
    }
    assert graveyard[..k] == graveyard;
  }

  /**
   * `howManyMinionsDiedThisTurn`, over every player's graveyard in player order: the
   * number of minions there whose DIED_ON_TURN is the current turn.
   */
  method HowManyMinionsDiedThisTurn(turn: int, graveyards: seq<seq<Entity>>) returns (count: nat)
    ensures count == |Filter(Flatten(graveyards), DiedThisTurn(turn))|
  {
    count := 0;
    var p := 0;
    while p < |graveyards|
      invariant 0 <= p <= |graveyards|
      invariant count == |Filter(Flatten(graveyards[..p]), DiedThisTurn(turn))|
    {
      var n := CountDiedInGraveyard(turn, graveyards[p]);
      FlattenSnoc(graveyards, p);
      FilterAppend(Flatten(graveyards[..p]), graveyards[p], DiedThisTurn(turn));
      count := count + n;
      p := p + 1;
    }
    assert graveyards[..p] == graveyards;
  }

  lemma {:induction false} FlattenSnoc<T>(xss: seq<seq<T>>, p: nat)
    requires p < |xss|
    ensures Flatten(xss[..p + 1]) == Flatten(xss[..p]) + xss[p]
  {
    if p == 0 {
      assert xss[..1] == [xss[0]];
      assert Flatten(xss[..1]) == xss[0] + Flatten(xss[..1][1..]);
      assert xss[..1][1..] == [];
    } else {
      var tail := xss[1..];
      FlattenSnoc(tail, p - 1);
      assert xss[..p + 1][1..] == tail[..p];
      assert xss[..p][1..] == tail[..p - 1];
      assert tail[p - 1] == xss[p];
    }
  }

  /** The enchantments a KEEPS_ENCHANTMENTS entity carries over. */
  const KeptEnchantments: set<Attribute> := {Poisonous, Lifesteal, Windfury, AttackBonus, HpBonus}

  /**
   * `processKeptEnchantments`: when the target keeps enchantments, every kept
   * enchantment it has is copied from it into `m`; every other entry of `m` is left
   * alone, and without KEEPS_ENCHANTMENTS `m` is returned unchanged.
   */
  function ProcessKeptEnchantments(target: Entity, m: map<Attribute, int>): (r: map<Attribute, int>)
    ensures !target.HasAttribute(KeepsEnchantments) ==> r == m
    ensures target.HasAttribute(KeepsEnchantments) ==>
      && r.Keys == m.Keys + (KeptEnchantments * target.attributes.Keys)
      && (forall a :: a in KeptEnchantments && a in target.attributes ==> r[a] == target.attributes[a])
    ensures forall a :: a in m && !(a in KeptEnchantments && target.HasAttribute(KeepsEnchantments) && target.HasAttribute(a)) ==>
      r[a] == m[a]
  {
    if target.HasAttribute(KeepsEnchantments) then
      m + map a | a in KeptEnchantments && a in target.attributes :: target.attributes[a]
    else
      m
  }
}

=== FILE: card_lookup.dfy ===
/**
 * Card retrieval of `SpellUtils`: `getSingleCard`, `getCardFromContextOrDiscover`,
 * `getCard`, and the `getCards` overloads, including the bounded random draw.
 *
 * The game context is reduced to what these read: every player's DISCOVER zone
 * (in player order), the entity the top of the event-source stack resolves to,
 * the current output card, and the card catalogue (an uninterpreted lookup).
 */
module CardLookup {
  import opened Wrappers
  import opened Entities
  import opened Spells
  import opened Lists
  import opened Oracle

  datatype LookupContext = LookupContext(
    discoverZones: seq<seq<Entity>>,
    eventSource: Option<Entity>,
    output: Option<Entity>,
    catalogue: string -> Option<Entity>)

  /** ASCII upper-casing of one character. */
  function UpperChar(c: char): char {
    if 'a' <= c <= 'z' then (c as int - 32) as char else c
  }

  /** ASCII upper-casing, as `String.toUpperCase` acts on the ids it is compared against. */
  function ToUpper(s: string): (r: string) {
    seq(|s|, i requires 0 <= i < |s| => UpperChar(s[i]))
  }

  /**
   * The first card of `cards` whose card id is `cardId`: found exactly when some
   * card has that id, and then no earlier card has it.
   */
  function FirstWithId(cards: seq<Entity>, cardId: string): (r: Option<nat>)
    ensures r.None? <==> forall i :: 0 <= i < |cards| ==> cards[i].cardId != cardId
    ensures r.Some? ==>
      && r.value < |cards| && cards[r.value].cardId == cardId
      && forall j :: 0 <= j < r.value ==> cards[j].cardId != cardId
  {
    if cards == [] then None
    else if cards[0].cardId == cardId then Some(0)
    else
      match FirstWithId(cards[1..], cardId)
      case None => None
      case Some(k) => Some(k + 1)
  }

  /**
   * `getCardFromContextOrDiscover`: a card with that id already shown in some
   * player's DISCOVER zone is preferred, the first one in player and zone order
   * (`findFirst`); only when none is there is the catalogue consulted.
   */
  function GetCardFromContextOrDiscover(ctx: LookupContext, cardId: string): (r: Option<Entity>)
    ensures var shown := Flatten(ctx.discoverZones);
      (exists i :: 0 <= i < |shown| && shown[i].cardId == cardId) ==>
        exists k :: && 0 <= k < |shown| && r == Some(shown[k]) && shown[k].cardId == cardId
                    && forall j :: 0 <= j < k ==> shown[j].cardId != cardId
    ensures var shown := Flatten(ctx.discoverZones);
      (forall i :: 0 <= i < |shown| ==> shown[i].cardId != cardId) ==> r == ctx.catalogue(cardId)
  {
    var shown := Flatten(ctx.discoverZones);
    match FirstWithId(shown, cardId)
    case Some(k) => Some(shown[k])
    case None => ctx.catalogue(cardId)
  }

  /** Two strings that are equal once every ASCII letter is compared case-insensitively. */
  predicate SameIgnoringCase(a: string, b: string) {
    |a| == |b| && forall i :: 0 <= i < |a| ==> UpperChar(a[i]) == UpperChar(b[i])
  }

  /**
   * `getSingleCard`: no id gives no card; EVENT_SOURCE and OUTPUT, in any letter
   * case, name the event source and the output card; any other id is looked up.
   */
  function GetSingleCard(ctx: LookupContext, cardId: Option<string>): (r: Option<Entity>)
    ensures cardId.None? ==> r.None?
    ensures cardId.Some? && SameIgnoringCase(cardId.value, "EVENT_SOURCE") ==> r == ctx.eventSource
    ensures cardId.Some? && SameIgnoringCase(cardId.value, "OUTPUT") ==> r == ctx.output
    ensures cardId.Some? && !SameIgnoringCase(cardId.value, "EVENT_SOURCE") && !SameIgnoringCase(cardId.value, "OUTPUT") ==>
      r == GetCardFromContextOrDiscover(ctx, cardId.value)
  {
    if cardId.None? then None
    else
      UpperMatchesKeyword(cardId.value, "EVENT_SOURCE");
      UpperMatchesKeyword(cardId.value, "OUTPUT");
      if ToUpper(cardId.value) == "EVENT_SOURCE" then ctx.eventSource
      else if ToUpper(cardId.value) == "OUTPUT" then ctx.output
      else GetCardFromContextOrDiscover(ctx, cardId.value)
  }

  /** Against an upper-case keyword, comparing after `toUpperCase` is comparing ignoring case. */
  lemma UpperMatchesKeyword(a: string, keyword: string)
    requires ToUpper(keyword) == keyword
    ensures SameIgnoringCase(a, keyword) <==> ToUpper(a) == keyword
  {
    if SameIgnoringCase(a, keyword) {
      assert forall i :: 0 <= i < |a| ==> ToUpper(a)[i] == keyword[i];
    }
    if ToUpper(a) == keyword {
      assert forall i :: 0 <= i < |a| ==> UpperChar(a[i]) == ToUpper(a)[i];
    }
  }

  /** Ids that differ only in letter case name the same card. */
  lemma {:induction false} KeywordsIgnoreCase(ctx: LookupContext, a: string, b: string)
    requires SameIgnoringCase(a, b)
    ensures ToUpper(a) == ToUpper(b)
    ensures ToUpper(a) == "OUTPUT" || ToUpper(a) == "EVENT_SOURCE" ==> GetSingleCard(ctx, Some(a)) == GetSingleCard(ctx, Some(b))
  {
    assert forall i :: 0 <= i < |a| ==> ToUpper(a)[i] == ToUpper(b)[i];
  }

  /** `getCard`: the card named by the CARD argument, none without one. */
  function GetCard(ctx: LookupContext, spell: SpellDesc): (r: Option<Entity>)
    ensures spell.card.None? ==> r.None?
    ensures spell.card.Some? && SameIgnoringCase(spell.card.value, "OUTPUT") ==> r == ctx.output
    ensures spell.card.Some? && SameIgnoringCase(spell.card.value, "EVENT_SOURCE") ==> r == ctx.eventSource
    ensures spell.card.Some? && !SameIgnoringCase(spell.card.value, "OUTPUT") && !SameIgnoringCase(spell.card.value, "EVENT_SOURCE") ==>
      r == GetCardFromContextOrDiscover(ctx, spell.card.value)
  {
    GetSingleCard(ctx, spell.card)
  }

  /**
   * `getCards(context, spell)`: one lookup per id of CARDS when present, else one
   * for CARD, else none; a lookup that finds nothing leaves a null in its slot.
   */
  function GetCards(ctx: LookupContext, spell: SpellDesc): (r: seq<Option<Entity>>)
    ensures spell.cards.Some? ==>
      |r| == |spell.cards.value| &&
      forall i :: 0 <= i < |r| ==> r[i] == GetSingleCard(ctx, Some(spell.cards.value[i]))
    ensures spell.cards.None? && spell.card.Some? ==> r == [GetSingleCard(ctx, spell.card)]
    ensures spell.cards.None? && spell.card.None? ==> r == []
  {
    if spell.cards.Some? then
      seq(|spell.cards.value|, i requires 0 <= i < |spell.cards.value| => GetSingleCard(ctx, Some(spell.cards.value[i])))
    else if spell.card.Some? then
      [GetSingleCard(ctx, spell.card)]
    else
      []
  }

  /** An explicit CARDS list makes the CARD argument irrelevant. */
  lemma CardsArgumentWins(ctx: LookupContext, spell: SpellDesc, other: Option<string>)
    requires spell.cards.Some?
    ensures GetCards(ctx, spell.(card := other)) == GetCards(ctx, spell)
  {
  }

  /**
   * The candidates of `getCards(..., count)` before any random draw: the explicit
   * cards, or, when there are none, the cards of the card source/filter, or,
   * without those, the target's source card.
   */
  function Candidates(
    ctx: LookupContext, spell: SpellDesc, target: Option<Entity>,
    filtered: seq<Entity>, sourceCard: Entity -> Entity)
    : (r: seq<Option<Entity>>)
    ensures GetCards(ctx, spell) != [] ==> r == GetCards(ctx, spell)
    ensures GetCards(ctx, spell) == [] && (spell.cardSource || spell.cardFilter) ==>
      |r| == |filtered| && forall i :: 0 <= i < |filtered| ==> r[i] == Some(filtered[i])
    ensures GetCards(ctx, spell) == [] && !spell.cardSource && !spell.cardFilter ==>
      r == if target.Some? then [Some(sourceCard(target.value))] else []
  {
    var explicit := GetCards(ctx, spell);
    if explicit != [] then explicit
    else if spell.cardSource || spell.cardFilter then seq(|filtered|, i requires 0 <= i < |filtered| => Some(filtered[i]))
    else if target.Some? then [Some(sourceCard(target.value))]
    else []
  }

  /**
   * The fallbacks apply only when the explicit list is empty, and in this order: the
   * filtered cards when a card source or filter is given, else the target's source
   * card, else nothing. The explicit list is empty without CARDS and CARD, and also
   * when CARDS is present but empty.
   */
  lemma CandidatesFallBack(
    ctx: LookupContext, spell: SpellDesc, target: Option<Entity>,
    filtered: seq<Entity>, sourceCard: Entity -> Entity)
    ensures (spell.cards.None? && spell.card.None?) || spell.cards == Some([]) ==> GetCards(ctx, spell) == []
    ensures GetCards(ctx, spell) != [] ==> Candidates(ctx, spell, target, filtered, sourceCard) == GetCards(ctx, spell)
    ensures GetCards(ctx, spell) == [] && (spell.cardSource || spell.cardFilter) ==>
      Candidates(ctx, spell, target, filtered, sourceCard) == seq(|filtered|, i requires 0 <= i < |filtered| => Some(filtered[i]))
    ensures GetCards(ctx, spell) == [] && !spell.cardSource && !spell.cardFilter && target.Some? ==>
      Candidates(ctx, spell, target, filtered, sourceCard) == [Some(sourceCard(target.value))]
    ensures GetCards(ctx, spell) == [] && !spell.cardSource && !spell.cardFilter && target.None? ==>
      Candidates(ctx, spell, target, filtered, sourceCard) == []
  {
  }

  /**
   * The draw of `getCards(..., count)`: all candidates when `count` is at least
   * their number, without any random draw; otherwise `max(count, 0)` of them drawn
   * one at a time without replacement by `removeRandom`.
   */
  method DrawCards<T>(cards: seq<T>, count: int, o: Oracle) returns (result: seq<T>, o': Oracle)
    ensures count >= |cards| ==> result == cards && Untouched(o, o')
    ensures count < |cards| ==> |result| == (if count > 0 then count else 0)
    ensures multiset(result) <= multiset(cards)
    ensures Drew(o, o', if count < |cards| then |result| else 0)
  {
    if count < |cards| {
      result := [];
      var pool := cards;
      var i := count;
      o' := o;
      while |pool| > 0 && i > 0
        invariant multiset(result) + multiset(pool) == multiset(cards)
        invariant |result| + |pool| == |cards|
        invariant i <= 0 || i + |result| == count
        invariant i <= 0 ==> |result| == (if count > 0 then count else 0)
        invariant Drew(o, o', |result|)
        decreases |pool|
      {
        var pick := Random(o', |pool|);
        var k := pick.0;
        o' := pick.1;
        assert pool == pool[..k] + [pool[k]] + pool[k + 1..];
        result := result + [pool[k]];
        pool := pool[..k] + pool[k + 1..];
        i := i - 1;
      }
    } else {
      result := cards;
      o' := o;
    }
  }

  /**
   * `getCards(context, player, target, source, desc, count)`; the card
   * source/filter result (`desc.getFilteredCards`) and `getSourceCard` are inputs.
   */
  method GetCardsUpTo(
    ctx: LookupContext, spell: SpellDesc, target: Option<Entity>,
    filtered: seq<Entity>, sourceCard: Entity -> Entity, count: int, o: Oracle)
    returns (result: seq<Option<Entity>>, o': Oracle)
    ensures var candidates := Candidates(ctx, spell, target, filtered, sourceCard);
      && (count >= |candidates| ==> result == candidates)
      && (count < |candidates| ==> |result| == (if count > 0 then count else 0))
      && multiset(result) <= multiset(candidates)
    ensures Drew(o, o', if count < |Candidates(ctx, spell, target, filtered, sourceCard)| then |result| else 0)
  {
    result, o' := DrawCards(Candidates(ctx, spell, target, filtered, sourceCard), count, o);
  }

  /** `getCards(context, player, target, source, desc)`: the count is the VALUE argument, 1 by default. */
  method GetCardsByValue(
    ctx: LookupContext, spell: SpellDesc, target: Option<Entity>,
    filtered: seq<Entity>, sourceCard: Entity -> Entity, o: Oracle)
    returns (result: seq<Option<Entity>>, o': Oracle)
    ensures var candidates := Candidates(ctx, spell, target, filtered, sourceCard);
      var count := spell.value.GetOr(1);
      && (count >= |candidates| ==> result == candidates && Untouched(o, o'))
      && (count < |candidates| ==> |result| == (if count > 0 then count else 0) && Drew(o, o', |result|))
      && multiset(result) <= multiset(candidates)
  {
    result, o' := GetCardsUpTo(ctx, spell, target, filtered, sourceCard, spell.value.GetOr(1), o);
  }
}

=== FILE: card_utils.dfy ===
/**
 * The card-content helpers used by the card tooling (`cards/utils.py`): the class
 * colour mapping, the card-id derivation from a name, and the breadth-first walk
 * over a card's JSON in which every nested object inherits its ancestors' keys.
 *
 * JSON objects are ordered dictionaries (they are loaded with an ordered-dict
 * hook), modelled as sequences of entries in insertion order.
 */
module CardUtils {
  import opened Wrappers
  import Lists

  datatype Json = JDict(entries: seq<Entry>) | JList(items: seq<Json>) | JScalar(text: string)

  datatype Entry = Entry(key: string, value: Json)

  // ---------------------------------------------------------------------------
  // CLASS_MAPPING

  /** Hero class to card colour. */
  const ClassMapping: map<string, string> := map[
    "DRUID" := "BROWN", "HUNTER" := "GREEN", "MAGE" := "BLUE", "PALADIN" := "GOLD",
    "PRIEST" := "WHITE", "ROGUE" := "BLACK", "SHAMAN" := "SILVER", "WARLOCK" := "VIOLET",
    "WARRIOR" := "RED", "DEATHKNIGHT" := "SPIRIT", "NEUTRAL" := "ANY", "DREAM" := "ANY"]

  /** The classes that have a colour of their own, and their colours. */
  const ColouredClasses := ["DRUID", "HUNTER", "MAGE", "PALADIN", "PRIEST", "ROGUE", "SHAMAN", "WARLOCK", "WARRIOR", "DEATHKNIGHT"]
  const Colours := ["BROWN", "GREEN", "BLUE", "GOLD", "WHITE", "BLACK", "SILVER", "VIOLET", "RED", "SPIRIT"]

  lemma ColourOfEachClass()
    ensures forall i :: 0 <= i < |ColouredClasses| ==> ColouredClasses[i] in ClassMapping && ClassMapping[ColouredClasses[i]] == Colours[i]
  {
  }

  lemma ColoursDiffer()
    ensures forall i, j :: 0 <= i < j < |Colours| ==> Colours[i] != Colours[j]
    ensures "ANY" !in Colours
  {
  }

  /**
   * The mapping covers exactly the ten coloured classes plus NEUTRAL and DREAM;
   * NEUTRAL and DREAM share the colour ANY, and each of the ten other classes has
   * a colour no other class has.
   */
  lemma ClassMappingColours()
    ensures ClassMapping.Keys == set c | c in ColouredClasses + ["NEUTRAL", "DREAM"]
    ensures ClassMapping["NEUTRAL"] == ClassMapping["DREAM"] == "ANY"
    ensures forall c :: c in ColouredClasses ==> c in ClassMapping && ClassMapping[c] != "ANY"
    ensures forall i, j :: 0 <= i < j < |ColouredClasses| ==> ClassMapping[ColouredClasses[i]] != ClassMapping[ColouredClasses[j]]
  {
    ColourOfEachClass();
    ColoursDiffer();
  }

  // ---------------------------------------------------------------------------
  // name_to_id

  predicate IsUpperAscii(c: char) {
    'A' <= c <= 'Z'
  }

  predicate IsAlnumAscii(c: char) {
    'a' <= c <= 'z' || 'A' <= c <= 'Z' || '0' <= c <= '9'
  }

  /** The characters a derived id is made of: `[a-z0-9_]`. */
  predicate IsIdChar(c: char) {
    'a' <= c <= 'z' || '0' <= c <= '9' || c == '_'
  }

  /** `str.lower` on one character, for ASCII letters. */
  function LowerChar(c: char): (r: char)
    ensures !IsUpperAscii(r)
    ensures IsAlnumAscii(r) <==> IsAlnumAscii(c)
  {
    if IsUpperAscii(c) then (c as int + 32) as char else c
  }

  function Lower(s: string): (r: string)
    ensures |r| == |s|
    ensures forall i :: 0 <= i < |s| ==> r[i] == LowerChar(s[i])
  {
    seq(|s|, i requires 0 <= i < |s| => LowerChar(s[i]))
  }

  /** `re.sub('[^a-zA-Z0-9]', '_', s)`. */
  function Sanitize(s: string): (r: string)
    ensures |r| == |s|
    ensures forall i :: 0 <= i < |s| ==> r[i] == (if IsAlnumAscii(s[i]) then s[i] else '_')
  {
    seq(|s|, i requires 0 <= i < |s| => if IsAlnumAscii(s[i]) then s[i] else '_')
  }

  /**
   * `name_to_id(name, card_type)`: the lower-cased card type, an underscore, then
   * the lower-cased name with every character outside `[a-zA-Z0-9]` turned into
   * an underscore. The name part keeps the name's length and uses only `[a-z0-9_]`.
   */
  function NameToId(name: string, cardType: string): (r: string)
    ensures |r| == |cardType| + 1 + |name|
    ensures r[..|cardType|] == Lower(cardType) && r[|cardType|] == '_'
    ensures forall i :: |cardType| < i < |r| ==> IsIdChar(r[i])
    ensures forall i :: 0 <= i < |name| ==>
      r[|cardType| + 1 + i] == (if IsAlnumAscii(name[i]) then LowerChar(name[i]) else '_')
  {
    var r := Lower(cardType) + "_" + Sanitize(Lower(name));
    assert forall i :: |cardType| < i < |r| ==> r[i] == Sanitize(Lower(name))[i - |cardType| - 1];
    r
  }

  /** Names that differ only in the case of ASCII letters get the same id. */
  lemma NameToIdIgnoresCase(name: string, other: string, cardType: string)
    requires |name| == |other|
    requires forall i :: 0 <= i < |name| ==> LowerChar(name[i]) == LowerChar(other[i])
    ensures NameToId(name, cardType) == NameToId(other, cardType)
  {
    var a, b := NameToId(name, cardType), NameToId(other, cardType);
    forall i | 0 <= i < |a|
      ensures a[i] == b[i]
    {
      if i < |cardType| {
        assert a[i] == a[..|cardType|][i] && b[i] == b[..|cardType|][i];
      } else if i > |cardType| {
        var j := i - |cardType| - 1;
        assert IsAlnumAscii(name[j]) <==> IsAlnumAscii(LowerChar(name[j]));
        assert IsAlnumAscii(other[j]) <==> IsAlnumAscii(LowerChar(other[j]));
      }
    }
  }

  /** Deriving an id again from the name part of an id gives the same id. */
  lemma NameToIdIdempotent(name: string, cardType: string)
    ensures var id := NameToId(name, cardType);
      NameToId(id[|cardType| + 1..], cardType) == id
  {
    var id := NameToId(name, cardType);
    var part := id[|cardType| + 1..];
    var again := NameToId(part, cardType);
    forall i | 0 <= i < |id|
      ensures again[i] == id[i]
    {
      if i < |cardType| {
        assert again[i] == again[..|cardType|][i] && id[i] == id[..|cardType|][i];
      } else if i > |cardType| {
        assert part[i - |cardType| - 1] == id[i];
      }
    }
  }

  /** The default arguments give the id `_`; a sample card name. */
  lemma NameToIdSamples()
    ensures NameToId("", "") == "_"
    ensures NameToId("Arcane Shot!", "SPELL") == "spell_arcane_shot_"
  {
    var id := NameToId("Arcane Shot!", "SPELL");
    var want := "spell_arcane_shot_";
    assert |id| == |want|;
    forall i | 0 <= i < |id|
      ensures id[i] == want[i]
    {
      if i < 5 {
        assert id[i] == id[..5][i] == Lower("SPELL")[i];
      }
    }
  }

  // ---------------------------------------------------------------------------
  // Ordered dictionaries

  function KeysOf(d: seq<Entry>): set<string> {
    set e | e in d :: e.key
  }

  /**
   * The value stored under `k`. The last entry for a key is the one that counts,
   * which is what successive assignments to a Python dict leave behind.
   */
  function Lookup(d: seq<Entry>, k: string): (r: Option<Json>)
    ensures r.Some? <==> k in KeysOf(d)
    ensures r.Some? ==> Entry(k, r.value) in d
  {
    if d == [] then None
    else
      assert d == d[..|d| - 1] + [d[|d| - 1]];
      if d[|d| - 1].key == k then Some(d[|d| - 1].value) else Lookup(d[..|d| - 1], k)
  }

  /** Every entry under `k` gets the value `v`; entries keep their places. */
  function Replace(d: seq<Entry>, k: string, v: Json): (r: seq<Entry>)
    ensures |r| == |d|
    ensures forall i :: 0 <= i < |d| ==> r[i].key == d[i].key
    ensures KeysOf(r) == KeysOf(d)
    ensures k in KeysOf(d) ==> Lookup(r, k) == Some(v)
    ensures forall other :: other != k ==> Lookup(r, other) == Lookup(d, other)
  {
    if d == [] then []
    else
      var init := Replace(d[..|d| - 1], k, v);
      var last := d[|d| - 1];
      var r := init + [if last.key == k then Entry(k, v) else last];
      assert d == d[..|d| - 1] + [last];
      LookupSnoc(init, r[|r| - 1]);
      LookupSnoc(d[..|d| - 1], last);
      r
  }

  /** `d[k] = v`: an existing key is given the new value in place, a new key is appended. */
  function Set(d: seq<Entry>, k: string, v: Json): (r: seq<Entry>)
    ensures Lookup(r, k) == Some(v)
    ensures forall other :: other != k ==> Lookup(r, other) == Lookup(d, other)
    ensures KeysOf(r) == KeysOf(d) + {k}
    ensures |r| >= |d| && forall i :: 0 <= i < |d| ==> r[i].key == d[i].key
  {
    if k in KeysOf(d) then Replace(d, k, v)
    else
      var r := d + [Entry(k, v)];
      assert r[..|r| - 1] == d;
      r
  }

  /**
   * `base.copy(); copy.update(overlay)`: the overlay's keys win, every other key
   * keeps the base's value, and the base's keys stay where they were.
   */
  function Update(base: seq<Entry>, overlay: seq<Entry>): (r: seq<Entry>)
    ensures forall k :: Lookup(r, k) == if k in KeysOf(overlay) then Lookup(overlay, k) else Lookup(base, k)
    ensures |r| >= |base| && forall i :: 0 <= i < |base| ==> r[i].key == base[i].key
  {
    if overlay == [] then base
    else
      var init := overlay[..|overlay| - 1];
      var last := overlay[|overlay| - 1];
      assert overlay == init + [last];
      LookupSnoc(init, last);
      var r := Set(Update(base, init), last.key, last.value);
      assert forall k :: Lookup(r, k) == if k in KeysOf(overlay) then Lookup(overlay, k) else Lookup(base, k) by {
        forall k
          ensures Lookup(r, k) == if k in KeysOf(overlay) then Lookup(overlay, k) else Lookup(base, k)
        {
          if k != last.key {
            assert k in KeysOf(overlay) <==> k in KeysOf(init);
          }
        }
      }
      r
  }

  /** Looking up in a dict with one more entry at the end. */
  lemma LookupSnoc(d: seq<Entry>, last: Entry)
    ensures KeysOf(d + [last]) == KeysOf(d) + {last.key}
    ensures forall k :: Lookup(d + [last], k) == if k == last.key then Some(last.value) else Lookup(d, k)
  {
    var r := d + [last];
    assert r[..|r| - 1] == d;
  }

  // ---------------------------------------------------------------------------
  // walk_card

  /** One item yielded by the walk: `(next_dict, parent, key, inherits)`. */
  datatype Visit = Visit(dict: seq<Entry>, parent: seq<Entry>, key: Option<string>, inherits: seq<Entry>)

  /** The visit queued for object `d` found under key `k` of `parent`. */
  function ChildVisit(parent: seq<Entry>, inherits: seq<Entry>, k: string, d: seq<Entry>): Visit {
    Visit(d, parent, Some(k), Update(inherits, d))
  }

  predicate IsObject(j: Json) {
    j.JDict?
  }

  /**
   * The objects in a list, in order; other items are skipped: the `i`-th visit is
   * the `i`-th object of the list.
   */
  function ItemChildren(parent: seq<Entry>, inherits: seq<Entry>, k: string, items: seq<Json>): (r: seq<Visit>)
    ensures forall c :: c in r ==> c.key == Some(k) && JDict(c.dict) in items && c == ChildVisit(parent, inherits, k, c.dict)
    ensures forall j :: j in items && j.JDict? ==> ChildVisit(parent, inherits, k, j.entries) in r
    ensures var objects := Lists.Filter(items, IsObject);
      |r| == |objects| && forall i :: 0 <= i < |r| ==> objects[i].JDict? && r[i] == ChildVisit(parent, inherits, k, objects[i].entries)
  {
    if items == [] then []
    else
      assert items == [items[0]] + items[1..];
      var rest := ItemChildren(parent, inherits, k, items[1..]);
      if items[0].JDict? then
        assert Lists.Filter(items, IsObject) == [items[0]] + Lists.Filter(items[1..], IsObject);
        [ChildVisit(parent, inherits, k, items[0].entries)] + rest
      else
        rest
  }

  /** An object value is queued itself; a list contributes its objects; scalars nothing. */
  function ValueChildren(parent: seq<Entry>, inherits: seq<Entry>, k: string, value: Json): seq<Visit> {
    match value
    case JDict(d) => [ChildVisit(parent, inherits, k, d)]
    case JList(items) => ItemChildren(parent, inherits, k, items)
    case JScalar(_) => []
  }

  /** Whether object `d` is the value under `k`, or an item of the list under `k`, in entry `e`. */
  predicate HoldsUnder(e: Entry, k: string, d: seq<Entry>) {
    e.key == k && (e.value == JDict(d) || (e.value.JList? && JDict(d) in e.value.items))
  }

  /** Whether `d` is an object nested directly under key `k` of some entry of `es`. */
  predicate NestedUnder(es: seq<Entry>, k: string, d: seq<Entry>) {
    es != [] && (HoldsUnder(es[0], k, d) || NestedUnder(es[1..], k, d))
  }

  /**
   * What one dict contributes to the queue, key by key in order: exactly the
   * objects nested directly under its keys, each tagged with its key and with
   * `inherits` overlaid by its own entries.
   */
  function EntryChildren(parent: seq<Entry>, inherits: seq<Entry>, es: seq<Entry>): (r: seq<Visit>)
    ensures forall c :: c in r ==>
      && c.key.Some? && NestedUnder(es, c.key.value, c.dict)
      && c == ChildVisit(parent, inherits, c.key.value, c.dict)
    ensures forall e :: e in es && e.value.JDict? ==> ChildVisit(parent, inherits, e.key, e.value.entries) in r
    ensures forall e, j :: e in es && e.value.JList? && j in e.value.items && j.JDict? ==>
      ChildVisit(parent, inherits, e.key, j.entries) in r
  {
    if es == [] then []
    else
      var head := ValueChildren(parent, inherits, es[0].key, es[0].value);
      var rest := EntryChildren(parent, inherits, es[1..]);
      assert es == [es[0]] + es[1..];
      assert forall c :: c in head ==> HoldsUnder(es[0], c.key.value, c.dict);
      head + rest
  }

  /** The visits a popped visit appends to the queue. */
  function Children(v: Visit): seq<Visit> {
    EntryChildren(v.dict, v.inherits, v.dict)
  }

  /** Number of JSON nodes: the measure the walk's queue shrinks by. */
  function Size(j: Json): nat
    decreases j, 1
  {
    match j
    case JDict(es) => 1 + EntriesSize(es)
    case JList(items) => 1 + ItemsSize(items)
    case JScalar(_) => 1
  }

  function EntriesSize(es: seq<Entry>): nat
    decreases es, 0
  {
    if es == [] then 0 else Size(es[0].value) + EntriesSize(es[1..])
  }

  function ItemsSize(items: seq<Json>): nat
    decreases items, 0
  {
    if items == [] then 0 else Size(items[0]) + ItemsSize(items[1..])
  }

  function QueueSize(queue: seq<Visit>): nat {
    if queue == [] then 0 else Size(JDict(queue[0].dict)) + QueueSize(queue[1..])
  }

  lemma {:induction false} QueueSizeAppend(a: seq<Visit>, b: seq<Visit>)
    ensures QueueSize(a + b) == QueueSize(a) + QueueSize(b)
  {
    if a == [] {
      assert a + b == b;
    } else {
      assert (a + b)[1..] == a[1..] + b;
      QueueSizeAppend(a[1..], b);
    }
  }

  lemma {:induction false} ItemChildrenSize(parent: seq<Entry>, inherits: seq<Entry>, k: string, items: seq<Json>)
    ensures QueueSize(ItemChildren(parent, inherits, k, items)) <= ItemsSize(items)
  {
    if items != [] {
      var head := if items[0].JDict? then [ChildVisit(parent, inherits, k, items[0].entries)] else [];
      ItemChildrenSize(parent, inherits, k, items[1..]);
      QueueSizeAppend(head, ItemChildren(parent, inherits, k, items[1..]));
    }
  }

  lemma {:induction false} EntryChildrenSize(parent: seq<Entry>, inherits: seq<Entry>, es: seq<Entry>)
    ensures QueueSize(EntryChildren(parent, inherits, es)) <= EntriesSize(es)
  {
    if es != [] {
      var head := ValueChildren(parent, inherits, es[0].key, es[0].value);
      match es[0].value {
        case JDict(_) =>
        case JList(items) => ItemChildrenSize(parent, inherits, es[0].key, items);
        case JScalar(_) =>
      }
      EntryChildrenSize(parent, inherits, es[1..]);
      QueueSizeAppend(head, EntryChildren(parent, inherits, es[1..]));
    }
  }

  /**
   * `walk_card`'s loop from a given queue: pop the front visit, yield it, append
   * its children.
   */
  function Walk(queue: seq<Visit>): (r: seq<Visit>)
    decreases QueueSize(queue)
    ensures |r| >= |queue|
    ensures queue != [] ==> r[0] == queue[0]
    ensures r == [] <==> queue == []
  {
    if queue == [] then []
    else
      var next := queue[1..] + Children(queue[0]);
      EntryChildrenSize(queue[0].dict, queue[0].inherits, queue[0].dict);
      QueueSizeAppend(queue[1..], Children(queue[0]));
      [queue[0]] + Walk(next)
  }

  /** One step of the loop, and the queue measure it decreases. */
  lemma WalkUnfolds(queue: seq<Visit>)
    requires queue != []
    ensures QueueSize(queue[1..] + Children(queue[0])) < QueueSize(queue)
    ensures Walk(queue) == [queue[0]] + Walk(queue[1..] + Children(queue[0]))
  {
    EntryChildrenSize(queue[0].dict, queue[0].inherits, queue[0].dict);
    QueueSizeAppend(queue[1..], Children(queue[0]));
  }

  /** The first visit: the card itself, an empty parent, no key, and the card as its own inherits. */
  function Root(card: seq<Entry>): Visit {
    Visit(card, [], None, card)
  }

  /** `walk_card(card)`: first the card itself, then its nested objects breadth-first. */
  function WalkCard(card: seq<Entry>): (r: seq<Visit>)
    ensures |r| >= 1 && r[0] == Visit(card, [], None, card)
    ensures r[1..] == Walk(Children(Root(card)))
  {
    assert [Root(card)][1..] + Children(Root(card)) == Children(Root(card));
    Walk([Root(card)])
  }

  /** Breadth-first: whatever is queued is yielded, in queue order, before anything queued later. */
  lemma {:induction false} WalkYieldsQueueFirst(queue: seq<Visit>)
    ensures |queue| <= |Walk(queue)| && Walk(queue)[..|queue|] == queue
    decreases QueueSize(queue)
  {
    if queue != [] {
      var next := queue[1..] + Children(queue[0]);
      WalkUnfolds(queue);
      WalkYieldsQueueFirst(next);
      var rest := Walk(next);
      assert Walk(queue) == [queue[0]] + rest;
      assert next[..|queue| - 1] == queue[1..];
      assert rest[..|queue| - 1] == queue[1..];
      assert ([queue[0]] + rest)[..|queue|] == [queue[0]] + rest[..|queue| - 1];
    }
  }

  /** The card's own nested objects come right after the card, in key order. */
  lemma TopLevelObjectsComeFirst(card: seq<Entry>)
    ensures var top := Children(Root(card));
      |WalkCard(card)| >= 1 + |top| && WalkCard(card)[1..1 + |top|] == top
  {
    WalkYieldsQueueFirst(Children(Root(card)));
  }

  // The number of objects the walk reaches, counted over the JSON tree.

  function DictsIn(d: seq<Entry>): nat
    decreases d, 1
  {
    1 + EntriesDicts(d)
  }

  function EntriesDicts(es: seq<Entry>): nat
    decreases es, 0
  {
    if es == [] then 0 else ValueDicts(es[0].value) + EntriesDicts(es[1..])
  }

  /** An object counts with everything in it; a list counts its objects only; lists in lists are not entered. */
  function ValueDicts(j: Json): nat
    decreases j, 0
  {
    match j
    case JDict(d) => DictsIn(d)
    case JList(items) => ItemDicts(items)
    case JScalar(_) => 0
  }

  function ItemDicts(items: seq<Json>): nat
    decreases items, 0
  {
    if items == [] then 0
    else (if items[0].JDict? then DictsIn(items[0].entries) else 0) + ItemDicts(items[1..])
  }

  function QueueDicts(queue: seq<Visit>): nat {
    if queue == [] then 0 else DictsIn(queue[0].dict) + QueueDicts(queue[1..])
  }

  lemma {:induction false} QueueDictsAppend(a: seq<Visit>, b: seq<Visit>)
    ensures QueueDicts(a + b) == QueueDicts(a) + QueueDicts(b)
  {
    if a == [] {
      assert a + b == b;
    } else {
      assert (a + b)[1..] == a[1..] + b;
      QueueDictsAppend(a[1..], b);
    }
  }

  lemma {:induction false} ItemChildrenDicts(parent: seq<Entry>, inherits: seq<Entry>, k: string, items: seq<Json>)
    ensures QueueDicts(ItemChildren(parent, inherits, k, items)) == ItemDicts(items)
  {
    if items != [] {
      var head := if items[0].JDict? then [ChildVisit(parent, inherits, k, items[0].entries)] else [];
      ItemChildrenDicts(parent, inherits, k, items[1..]);
      QueueDictsAppend(head, ItemChildren(parent, inherits, k, items[1..]));
    }
  }

  lemma {:induction false} EntryChildrenDicts(parent: seq<Entry>, inherits: seq<Entry>, es: seq<Entry>)
    ensures QueueDicts(EntryChildren(parent, inherits, es)) == EntriesDicts(es)
  {
    if es != [] {
      var head := ValueChildren(parent, inherits, es[0].key, es[0].value);
      match es[0].value {
        case JDict(_) =>
        case JList(items) => ItemChildrenDicts(parent, inherits, es[0].key, items);
        case JScalar(_) =>
      }
      EntryChildrenDicts(parent, inherits, es[1..]);
      QueueDictsAppend(head, EntryChildren(parent, inherits, es[1..]));
    }
  }

  lemma {:induction false} WalkLength(queue: seq<Visit>)
    ensures |Walk(queue)| == QueueDicts(queue)
    decreases QueueSize(queue)
  {
    if queue != [] {
      var next := queue[1..] + Children(queue[0]);
      WalkUnfolds(queue);
      WalkLength(next);
      QueueDictsAppend(queue[1..], Children(queue[0]));
      EntryChildrenDicts(queue[0].dict, queue[0].inherits, queue[0].dict);
    }
  }

  /**
   * The walk yields as many items as there are objects it can reach: the card,
   * every object value, and every object directly inside a list value, at any
   * depth below an object. Scalars, and items of lists that are not objects, are
   * never yielded.
   */
  lemma WalkCardLength(card: seq<Entry>)
    ensures |WalkCard(card)| == DictsIn(card)
  {
    WalkLength([Root(card)]);
  }

  /** Each visit's own keys take precedence over what it inherits. */
  ghost predicate OwnKeysWin(v: Visit) {
    forall k :: k in KeysOf(v.dict) ==> Lookup(v.inherits, k) == Lookup(v.dict, k)
  }

  lemma {:induction false} WalkKeepsOwnKeysWinning(queue: seq<Visit>)
    requires forall v :: v in queue ==> OwnKeysWin(v)
    ensures forall v :: v in Walk(queue) ==> OwnKeysWin(v)
    decreases QueueSize(queue)
  {
    if queue != [] {
      var next := queue[1..] + Children(queue[0]);
      WalkUnfolds(queue);
      WalkKeepsOwnKeysWinning(next);
    }
  }

  /**
   * Every yielded object's `inherits` holds its own keys with its own values: a
   * child's keys override what it inherits from its ancestors.
   */
  lemma WalkCardOwnKeysWin(card: seq<Entry>)
    ensures forall v :: v in WalkCard(card) ==> OwnKeysWin(v)
  {
    WalkKeepsOwnKeysWinning([Root(card)]);
  }

  /**
   * Every object after the card was reached under a key of the object yielded as
   * its parent, and inherits that parent's `inherits` overlaid with its own entries.
   */
  lemma {:induction false} WalkLinksParents(queue: seq<Visit>)
    ensures forall v :: v in Walk(queue) && v !in queue ==>
      exists p :: p in Walk(queue) && v in Children(p) &&
        v.parent == p.dict && NestedUnder(p.dict, v.key.value, v.dict) && v.inherits == Update(p.inherits, v.dict)
    decreases QueueSize(queue)
  {
    if queue != [] {
      var next := queue[1..] + Children(queue[0]);
      WalkUnfolds(queue);
      WalkLinksParents(next);
      assert Walk(queue) == [queue[0]] + Walk(next);
    }
  }
}

=== FILE: child_spells.dfy ===
/**
 * The two `castChildSpell` overloads of `SpellUtils`.
 *
 * The first turns nullable source/target entities into references, never null:
 * an explicit spell target wins, otherwise the target is inherited, otherwise
 * it is the NONE sentinel; a missing source becomes NONE.
 *
 * The second casts a child spell "on an output" (a drawn or received card): it
 * does nothing when there is no output, the output is in the graveyard, or there
 * is no spell; otherwise it pushes the output on the output stack, casts, and pops.
 *
 * `GameLogic.castSpell` is left uninterpreted except for the child casts its spell
 * issues: a `SpellNode` lists them, so a whole tree of nested child casts can be
 * run and the push/pop discipline checked over every nesting depth.
 */
module ChildSpells {
  import opened Wrappers
  import opened Entities
  import opened Spells

  /** The arguments handed to `GameLogic.castSpell` (the last one is `childSpell`). */
  datatype CastRequest = CastRequest(
    playerId: int, spell: SpellDesc, source: EntityReference, target: EntityReference, childSpell: bool)

  /** `castChildSpell(context, player, spell, source, target)`. */
  function CastChildSpell(playerId: int, spell: SpellDesc, source: Option<Entity>, target: Option<Entity>)
    : (c: CastRequest)
    ensures c.playerId == playerId && c.spell == spell && c.childSpell
    ensures spell.target.Some? ==> c.target == spell.target.value
    ensures spell.target.None? && target.Some? ==> c.target == target.value.Reference()
    ensures spell.target.None? && target.None? ==> c.target == NoneReference
    ensures source.Some? ==> c.source == source.value.Reference()
    ensures source.None? ==> c.source == NoneReference
  {
    var sourceReference := if source.Some? then Some(source.value.Reference()) else None;
    var targetReference :=
      if spell.target.None? && target.Some? then Some(target.value.Reference()) else spell.target;
    CastRequest(playerId, spell, sourceReference.GetOr(NoneReference), targetReference.GetOr(NoneReference), true)
  }

  /** An explicit spell target makes the inherited target irrelevant. */
  lemma ExplicitTargetWins(playerId: int, spell: SpellDesc, source: Option<Entity>, t1: Option<Entity>, t2: Option<Entity>)
    requires spell.target.Some?
    ensures CastChildSpell(playerId, spell, source, t1).target == CastChildSpell(playerId, spell, source, t2).target
  {
  }

  /** A child cast issued by a running spell: the six-argument `castChildSpell`. */
  datatype ChildCast = ChildCast(
    spell: Option<SpellNode>, source: Option<Entity>, target: Option<Entity>, output: Option<Entity>)

  /** A spell as the output stack sees it: its description and the child casts its body issues, in order. */
  datatype SpellNode = SpellNode(desc: SpellDesc, children: seq<ChildCast>)

  /** One call of `GameLogic.castSpell`, with the output stack (bottom first) at that moment. */
  datatype CastRecord = CastRecord(request: CastRequest, outputs: seq<EntityReference>)

  /** The output stack after a run, and every `castSpell` call it made, in order. */
  datatype Run = Run(outputs: seq<EntityReference>, trace: seq<CastRecord>)

  /** The three cases in which the output overload returns without doing anything. */
  predicate Skipped(zones: map<int, Zone>, call: ChildCast) {
    || call.output.None?
    || ZoneOf(zones, call.output.value.id) == Graveyard
    || call.spell.None?
  }

  /**
   * `castChildSpell(context, player, spell, source, target, output)`. The stack is
   * the same afterwards; a skipped call casts nothing, and otherwise the child is
   * cast with the output on top of the caller's stack.
   */
  function CastChildSpellWithOutput(zones: map<int, Zone>, playerId: int, outputs: seq<EntityReference>, call: ChildCast)
    : (r: Run)
    decreases call
    ensures r.outputs == outputs
    ensures Skipped(zones, call) <==> r.trace == []
    ensures !Skipped(zones, call) ==>
      r.trace[0] == CastRecord(
        CastChildSpell(playerId, call.spell.value.desc, call.source, call.target),
        outputs + [call.output.value.Reference()])
    ensures forall rec :: rec in r.trace ==> outputs < rec.outputs
  {
    if call.output.None? || ZoneOf(zones, call.output.value.id) == Graveyard then
      Run(outputs, [])
    else if call.spell.None? then
      Run(outputs, [])
    else
      var pushed := outputs + [call.output.value.Reference()];
      var inner := CastSpell(zones, playerId, pushed, call.spell.value, call.source, call.target);
      Run(inner.outputs[..|inner.outputs| - 1], inner.trace)
  }

  /** `castSpell` on a spell node: record the call, then run the child casts its body issues. */
  function CastSpell(
    zones: map<int, Zone>, playerId: int, outputs: seq<EntityReference>,
    node: SpellNode, source: Option<Entity>, target: Option<Entity>)
    : (r: Run)
    decreases node
    ensures r.outputs == outputs
    ensures |r.trace| > 0 && r.trace[0] == CastRecord(CastChildSpell(playerId, node.desc, source, target), outputs)
    ensures forall rec :: rec in r.trace ==> outputs <= rec.outputs
  {
    var here := CastRecord(CastChildSpell(playerId, node.desc, source, target), outputs);
    var rest := CastChildren(zones, playerId, outputs, node.children);
    Run(rest.outputs, [here] + rest.trace)
  }

  /** The child casts of one spell body, in order, each seeing the stack the previous one left. */
  function CastChildren(zones: map<int, Zone>, playerId: int, outputs: seq<EntityReference>, calls: seq<ChildCast>)
    : (r: Run)
    decreases calls
    ensures r.outputs == outputs
    ensures forall rec :: rec in r.trace ==> outputs < rec.outputs
  {
    if calls == [] then
      Run(outputs, [])
    else
      var first := CastChildSpellWithOutput(zones, playerId, outputs, calls[0]);
      var rest := CastChildren(zones, playerId, first.outputs, calls[1..]);
      Run(rest.outputs, first.trace + rest.trace)
  }
}

=== FILE: combat.dfy ===
/**
 * The combat and targeting rules that the special-card tests of the older engine
 * rely on: a minion that grows when damaged (Gurubashi Berserker) and an elusive
 * minion (Faerie Dragon) that spells and hero powers cannot single out.
 */
module Combat {
  import opened Lists

  /**
   * A minion in combat. `gainOnDamage` is the attack it gains each time it takes
   * damage (0 for an ordinary minion); an `elusive` minion cannot be targeted by
   * spells or hero powers.
   */
  datatype Minion = Minion(attack: int, hp: int, maxHp: int, gainOnDamage: int, elusive: bool)

  /** A minion card: base attack and health, growth on damage, elusiveness. */
  datatype MinionCard = MinionCard(baseAttack: int, baseHp: int, gainOnDamage: int, elusive: bool)

  /** Summoning puts a minion on the board at full health with its base attack. */
  function Summon(card: MinionCard): (m: Minion)
    ensures m.attack == card.baseAttack
    ensures m.hp == m.maxHp == card.baseHp
    ensures m.gainOnDamage == card.gainOnDamage && m.elusive == card.elusive
  {
    Minion(card.baseAttack, card.baseHp, card.baseHp, card.gainOnDamage, card.elusive)
  }

  /** Taking `amount` damage; a positive amount sets off the minion's growth. */
  function TakeDamage(m: Minion, amount: int): Minion {
    if amount > 0 then m.(hp := m.hp - amount, attack := m.attack + m.gainOnDamage) else m
  }

  /**
   * A physical attack: both minions deal their pre-combat attack to each other at
   * once, and growth on damage applies after the exchange.
   */
  function Fight(attacker: Minion, defender: Minion): (r: (Minion, Minion))
    ensures r.0.hp == attacker.hp - (if defender.attack > 0 then defender.attack else 0)
    ensures r.1.hp == defender.hp - (if attacker.attack > 0 then attacker.attack else 0)
    ensures r.1.attack == defender.attack + (if attacker.attack > 0 then defender.gainOnDamage else 0)
    ensures r.0.maxHp == attacker.maxHp && r.1.maxHp == defender.maxHp
  {
    (TakeDamage(attacker, defender.attack), TakeDamage(defender, attacker.attack))
  }

  /**
   * The Gurubashi Berserker scenario: an ordinary attacker with positive attack `a`
   * fights a berserker of base attack `base` and bonus `bonus` twice. After the
   * first fight each has lost the other's pre-combat attack and the berserker has
   * gained the bonus once; the second fight is dealt with the raised attack.
   */
  lemma {:induction false} BerserkerGrowsEachFight(attackerCard: MinionCard, berserkerCard: MinionCard)
    requires attackerCard.baseAttack > 0 && attackerCard.gainOnDamage == 0
    requires berserkerCard.baseAttack >= 0 && berserkerCard.gainOnDamage >= 0
    ensures var attacker, defender := Summon(attackerCard), Summon(berserkerCard);
      var base, bonus, a := berserkerCard.baseAttack, berserkerCard.gainOnDamage, attackerCard.baseAttack;
      && defender.attack == base
      && var (attacker1, defender1) := Fight(attacker, defender);
      && attacker1.hp == attacker1.maxHp - base
      && defender1.hp == defender1.maxHp - attacker1.attack
      && defender1.attack == base + bonus
      && var (attacker2, defender2) := Fight(attacker1, defender1);
      && attacker2.hp == attacker2.maxHp - 2 * base - bonus
      && defender2.hp == defender2.maxHp - 2 * attacker2.attack
      && defender2.attack == base + 2 * bonus
  {
    var attacker, defender := Summon(attackerCard), Summon(berserkerCard);
    var (attacker1, defender1) := Fight(attacker, defender);
    assert attacker1.attack == attacker.attack;
    var (attacker2, defender2) := Fight(attacker1, defender1);
    assert attacker2.attack == attacker.attack;
  }

  /** A character on the board: a hero or a minion of one player. */
  datatype Character = Character(id: int, owner: int, isHero: bool, elusive: bool, hp: int)

  /** Who an action may aim at. */
  datatype TargetRequirement = EnemyCharacters | AnyCharacter

  /** The kind of action asking for targets; only spells and hero powers honour elusiveness. */
  datatype ActionKind = PhysicalAttack | HeroPowerOrSpell

  function Eligible(player: int, requirement: TargetRequirement, kind: ActionKind): Character -> bool {
    (c: Character) =>
      && (requirement == EnemyCharacters ==> c.owner != player)
      && (kind == HeroPowerOrSpell ==> !c.elusive)
  }

  /** `getValidTargets` for an action of `player`'s. */
  function ValidTargets(board: seq<Character>, player: int, requirement: TargetRequirement, kind: ActionKind): (r: seq<Character>)
    ensures forall c :: c in r ==> c in board
    ensures forall c :: c in board ==> (c in r <==> Eligible(player, requirement, kind)(c))
  {
    Filter(board, Eligible(player, requirement, kind))
  }

  /** An elusive enemy can still be attacked. */
  lemma ElusiveCanBeAttacked(board: seq<Character>, player: int, c: Character)
    requires c in board && c.owner != player
    ensures c in ValidTargets(board, player, EnemyCharacters, PhysicalAttack)
  {
  }

  /** An elusive character is never a valid target of a spell or hero power. */
  lemma ElusiveIsNeverSingledOut(board: seq<Character>, player: int, requirement: TargetRequirement, c: Character)
    requires c.elusive
    ensures c !in ValidTargets(board, player, requirement, HeroPowerOrSpell)
  {
  }

  /** Untargeted area damage: every enemy minion takes `amount`, elusive or not. */
  function AreaDamage(board: seq<Character>, player: int, amount: int): (r: seq<Character>)
    ensures |r| == |board|
    ensures forall i :: 0 <= i < |board| ==> r[i] == board[i].(hp := r[i].hp)
    ensures forall i :: 0 <= i < |board| && board[i].owner != player && !board[i].isHero ==> r[i].hp == board[i].hp - amount
    ensures forall i :: 0 <= i < |board| && (board[i].owner == player || board[i].isHero) ==> r[i] == board[i]
  {
    seq(|board|, i requires 0 <= i < |board| =>
      if board[i].owner != player && !board[i].isHero then board[i].(hp := board[i].hp - amount) else board[i])
  }

  /** Area damage does reach an elusive enemy minion. */
  lemma AreaDamageHitsElusive(board: seq<Character>, player: int, amount: int, i: nat)
    requires i < |board| && board[i].elusive && !board[i].isHero && board[i].owner != player && amount != 0
    ensures AreaDamage(board, player, amount)[i].hp != board[i].hp
  {
  }

  /**
   * The Faerie Dragon scenario: each player has a hero; player 1 (the warrior) has
   * the elusive dragon, player 0 (the mage) a plain minion.
   */
  const MageHero := Character(1, 0, true, false, 30)
  const WarriorHero := Character(2, 1, true, false, 30)
  const FaerieDragon := Character(3, 1, false, true, 2)
  const DevMonster := Character(4, 0, false, false, 1)
  const DragonBoard := [MageHero, WarriorHero, FaerieDragon, DevMonster]

  /** A physical attack of the mage's sees two targets: the enemy hero and the dragon. */
  lemma DragonCanBeAttacked()
    ensures ValidTargets(DragonBoard, 0, EnemyCharacters, PhysicalAttack) == [WarriorHero, FaerieDragon]
  {
    var keep := Eligible(0, EnemyCharacters, PhysicalAttack);
    assert Filter([DevMonster], keep) == [];
    assert [FaerieDragon, DevMonster][1..] == [DevMonster];
    assert Filter([FaerieDragon, DevMonster], keep) == [FaerieDragon];
    assert [WarriorHero, FaerieDragon, DevMonster][1..] == [FaerieDragon, DevMonster];
    assert Filter([WarriorHero, FaerieDragon, DevMonster], keep) == [WarriorHero, FaerieDragon];
    assert DragonBoard[1..] == [WarriorHero, FaerieDragon, DevMonster];
  }

  /**
   * The attack as the test computes it, for the warrior's id: two targets as the
   * test expects, but they are the mage's hero and minion, so the assertion holds
   * without the dragon being a target at all.
   */
  lemma AttackTargetsAsWritten()
    ensures ValidTargets(DragonBoard, 1, EnemyCharacters, PhysicalAttack) == [MageHero, DevMonster]
    ensures |ValidTargets(DragonBoard, 1, EnemyCharacters, PhysicalAttack)| == 2
    ensures FaerieDragon !in ValidTargets(DragonBoard, 1, EnemyCharacters, PhysicalAttack)
  {
    var keep := Eligible(1, EnemyCharacters, PhysicalAttack);
    assert Filter([DevMonster], keep) == [DevMonster] by {
      assert [DevMonster][1..] == [];
    }
    assert [FaerieDragon, DevMonster][1..] == [DevMonster];
    assert Filter([FaerieDragon, DevMonster], keep) == [DevMonster];
    assert [WarriorHero, FaerieDragon, DevMonster][1..] == [FaerieDragon, DevMonster];
    assert Filter([WarriorHero, FaerieDragon, DevMonster], keep) == [DevMonster];
    assert DragonBoard[1..] == [WarriorHero, FaerieDragon, DevMonster];
  }

  /**
   * A hero power that may aim at any character sees three targets (both heroes and
   * the mage's minion), not the dragon.
   */
  lemma DragonEludesHeroPower()
    ensures ValidTargets(DragonBoard, 0, AnyCharacter, HeroPowerOrSpell) == [MageHero, WarriorHero, DevMonster]
    ensures FaerieDragon !in ValidTargets(DragonBoard, 0, AnyCharacter, HeroPowerOrSpell)
  {
    var keep := Eligible(0, AnyCharacter, HeroPowerOrSpell);
    assert Filter([DevMonster], keep) == [DevMonster] by {
      assert [DevMonster][1..] == [];
    }
    assert [FaerieDragon, DevMonster][1..] == [DevMonster];
    assert Filter([FaerieDragon, DevMonster], keep) == [DevMonster];
    assert [WarriorHero, FaerieDragon, DevMonster][1..] == [FaerieDragon, DevMonster];
    assert Filter([WarriorHero, FaerieDragon, DevMonster], keep) == [WarriorHero, DevMonster];
    assert DragonBoard[1..] == [WarriorHero, FaerieDragon, DevMonster];
  }

  /** Arcane Explosion's area damage still changes the dragon's hp. */
  lemma DragonTakesAreaDamage()
    ensures AreaDamage(DragonBoard, 0, 1)[2].hp != FaerieDragon.hp
  {
    AreaDamageHitsElusive(DragonBoard, 0, 1, 2);
  }
}

=== FILE: discover.dfy ===
/**
 * The discover flow of `SpellUtils`: `discoverCard` copies the offered cards into
 * the DISCOVER zone under fresh ids and builds one action per copy; `postDiscover`
 * picks exactly one action (randomly under RANDOM_CHOICES, otherwise by asking the
 * player) and then purges every offered card to REMOVED_FROM_PLAY. The chosen
 * action is returned, not performed.
 */
module Discover {
  import opened Wrappers
  import opened Entities
  import opened Spells
  import opened Oracle

  /** A `DiscoverAction`: its action id, the discoverable card and the spell that receives it. */
  datatype DiscoverAction = DiscoverAction(actionId: int, card: Entity, spell: SpellDesc)

  /**
   * What a discover reads and changes of the game: the zone of every entity, the
   * next id `generateId` hands out, and the entities carrying RANDOM_CHOICES.
   */
  datatype Game = Game(zones: map<int, Zone>, nextId: int, randomChoices: set<int>)

  /** Every entity placed in a zone has an id below the next fresh one. */
  ghost predicate IdsAllocated(g: Game) {
    forall id :: id in g.zones ==> id < g.nextId
  }

  /** The result of a discover, the game and oracle after it, and the ids handed to `removeCard`, in order. */
  datatype Discovery = Discovery(chosen: Option<DiscoverAction>, game: Game, oracle: Oracle, removed: seq<int>)

  function IdsOf(cards: seq<Entity>): (ids: seq<int>)
    ensures |ids| == |cards|
    ensures forall i :: 0 <= i < |cards| ==> ids[i] == cards[i].id
  {
    seq(|cards|, i requires 0 <= i < |cards| => cards[i].id)
  }

  /**
   * The clean-up loop of `postDiscover`: every offered card still in DISCOVER moves
   * to REMOVED_FROM_PLAY; every other entity keeps its zone.
   */
  function PurgeDiscovered(zones: map<int, Zone>, cards: seq<Entity>): (z: map<int, Zone>)
    ensures z.Keys == zones.Keys
    ensures forall id :: id in zones ==>
      z[id] == (if zones[id] == Discover && id in IdsOf(cards) then RemovedFromPlay else zones[id])
  {
    if cards == [] then zones
    else
      var first := cards[0].id;
      var moved := if ZoneOf(zones, first) == Discover then zones[first := RemovedFromPlay] else zones;
      assert IdsOf(cards) == [first] + IdsOf(cards[1..]);
      PurgeDiscovered(moved, cards[1..])
  }

  /**
   * `postDiscover`. With no actions: nothing chosen, nothing drawn or asked, nothing
   * moved. Otherwise exactly one of the offered actions is chosen, by one random draw
   * when some entity carries RANDOM_CHOICES and by one player decision otherwise, and
   * afterwards none of the offered cards is left in DISCOVER.
   */
  function PostDiscover(g: Game, o: Oracle, cards: seq<Entity>, actions: seq<DiscoverAction>): (r: Discovery)
    ensures actions == [] ==> r.chosen.None? && r.game == g && Untouched(o, r.oracle) && r.removed == []
    ensures actions != [] ==> r.chosen.Some? && r.chosen.value in actions
    ensures actions != [] && g.randomChoices != {} ==> Drew(o, r.oracle, 1)
    ensures actions != [] && g.randomChoices == {} ==> AskedOnce(o, r.oracle)
    ensures actions != [] ==> r.removed == IdsOf(cards)
    ensures actions != [] ==> forall c :: c in cards ==> ZoneOf(r.game.zones, c.id) != Discover
    ensures r.game.zones.Keys == g.zones.Keys
    ensures forall id :: id in g.zones && id !in IdsOf(cards) ==> r.game.zones[id] == g.zones[id]
    ensures r.game.nextId == g.nextId && r.game.randomChoices == g.randomChoices
  {
    if actions == [] then
      Discovery(None, g, o, [])
    else
      var pick := if g.randomChoices != {} then Random(o, |actions|) else Request(o, |actions|);
      var zones := PurgeDiscovered(g.zones, cards);
      assert forall c :: c in cards ==> c.id in IdsOf(cards) by {
        forall c | c in cards ensures c.id in IdsOf(cards) {
          var i :| 0 <= i < |cards| && cards[i] == c;
          assert IdsOf(cards)[i] == c.id;
        }
      }
      Discovery(Some(actions[pick.0]), g.(zones := zones), pick.1, IdsOf(cards))
  }

  /** The copy of the `i`-th offered card: a fresh id and the discovering player as owner. */
  function CopyFor(g: Game, playerId: int, cards: seq<Entity>, i: nat): (c: Entity)
    requires i < |cards|
    ensures c.cardId == cards[i].cardId && c.owner == playerId && c.id == g.nextId + i
  {
    cards[i].(id := g.nextId + i, owner := playerId)
  }

  /** The game after the copies are placed into DISCOVER, before the choice. */
  function PlaceCopies(g: Game, copies: seq<Entity>): (placed: Game)
    requires IdsAllocated(g)
    requires forall id :: id in IdsOf(copies) <==> g.nextId <= id < g.nextId + |copies|
    ensures IdsAllocated(placed) && placed.nextId == g.nextId + |copies|
    ensures forall id :: id in g.zones ==> id in placed.zones && placed.zones[id] == g.zones[id]
    ensures forall id :: id in IdsOf(copies) ==> ZoneOf(placed.zones, id) == Discover
    ensures placed.randomChoices == g.randomChoices
  {
    var added := map id | id in IdsOf(copies) :: Discover;
    Game(g.zones + added, g.nextId + |copies|, g.randomChoices)
  }

  /** The offered copies, and the action offering each. */
  function Copies(g: Game, playerId: int, cards: seq<Entity>): (copies: seq<Entity>)
    ensures |copies| == |cards|
    ensures forall i :: 0 <= i < |cards| ==> copies[i] == CopyFor(g, playerId, cards, i)
    ensures forall id :: id in IdsOf(copies) <==> g.nextId <= id < g.nextId + |cards|
  {
    var copies := seq(|cards|, i requires 0 <= i < |cards| => CopyFor(g, playerId, cards, i));
    forall id | g.nextId <= id < g.nextId + |cards| ensures id in IdsOf(copies) {
      assert IdsOf(copies)[id - g.nextId] == id;
    }
    copies
  }

  function Offers(copies: seq<Entity>, spell: SpellDesc): (actions: seq<DiscoverAction>)
    ensures |actions| == |copies|
    ensures forall i :: 0 <= i < |copies| ==>
      actions[i] == DiscoverAction(i, copies[i], spell.(card := Some(copies[i].cardId)))
  {
    seq(|copies|, i requires 0 <= i < |copies| => DiscoverAction(i, copies[i], spell.(card := Some(copies[i].cardId))))
  }

  /**
   * `discoverCard(context, player, desc, cards)`, with `spell` the SPELL argument of
   * `desc`. Discover always works on copies with fresh ids; action `i` offers the
   * copy of card `i` with the CARD argument set to its card id.
   */
  function DiscoverCard(g: Game, o: Oracle, playerId: int, spell: SpellDesc, cards: seq<Entity>): (r: Discovery)
    requires IdsAllocated(g)
    ensures r.game.nextId == g.nextId + |cards| && IdsAllocated(r.game)
    ensures r.game.randomChoices == g.randomChoices
  {
    var copies := Copies(g, playerId, cards);
    PostDiscover(PlaceCopies(g, copies), o, copies, Offers(copies, spell))
  }

  /** With nothing to offer, discover changes nothing and neither draws nor asks. */
  lemma DiscoverNothingOffered(g: Game, o: Oracle, playerId: int, spell: SpellDesc)
    requires IdsAllocated(g)
    ensures var r := DiscoverCard(g, o, playerId, spell, []);
      r.chosen.None? && r.game == g && Untouched(o, r.oracle) && r.removed == []
  {
    var copies := Copies(g, playerId, []);
    assert PlaceCopies(g, copies).zones == g.zones;
  }

  /**
   * With at least one card, discover returns exactly one of the offered actions:
   * action `i` carries the copy of card `i` (fresh id, owned by the player) and the
   * spell with that card id; it costs one random draw under RANDOM_CHOICES and one
   * player decision otherwise.
   */
  lemma DiscoverChoosesOneCopy(g: Game, o: Oracle, playerId: int, spell: SpellDesc, cards: seq<Entity>)
    requires IdsAllocated(g) && cards != []
    ensures var r := DiscoverCard(g, o, playerId, spell, cards);
      && r.chosen.Some?
      && 0 <= r.chosen.value.actionId < |cards|
      && r.chosen.value.card == CopyFor(g, playerId, cards, r.chosen.value.actionId)
      && r.chosen.value.card.id !in g.zones
      && r.chosen.value.spell == spell.(card := Some(cards[r.chosen.value.actionId].cardId))
      && (g.randomChoices != {} ==> Drew(o, r.oracle, 1))
      && (g.randomChoices == {} ==> AskedOnce(o, r.oracle))
  {
    var copies := Copies(g, playerId, cards);
    var actions := Offers(copies, spell);
    var r := PostDiscover(PlaceCopies(g, copies), o, copies, actions);
    var i :| 0 <= i < |actions| && actions[i] == r.chosen.value;
    assert r.chosen.value.actionId == i;
  }

  /**
   * After a discover of at least one card, every copy has been moved out of DISCOVER
   * to REMOVED_FROM_PLAY, and every entity that existed before keeps its zone: the
   * originals are never exposed.
   */
  lemma DiscoverPurgesCopies(g: Game, o: Oracle, playerId: int, spell: SpellDesc, cards: seq<Entity>)
    requires IdsAllocated(g) && cards != []
    ensures var r := DiscoverCard(g, o, playerId, spell, cards);
      && (forall id :: g.nextId <= id < g.nextId + |cards| ==> ZoneOf(r.game.zones, id) == RemovedFromPlay)
      && (forall id :: id in g.zones ==> id in r.game.zones && r.game.zones[id] == g.zones[id])
      && IdsAllocated(r.game)
  {
    var copies := Copies(g, playerId, cards);
    var placed := PlaceCopies(g, copies);
    var r := PostDiscover(placed, o, copies, Offers(copies, spell));
    forall id | g.nextId <= id < g.nextId + |cards|
      ensures ZoneOf(r.game.zones, id) == RemovedFromPlay
    {
      var c := copies[id - g.nextId];
      assert c in copies && c.id == id;
      assert id in IdsOf(copies);
    }
    forall id | id in g.zones
      ensures id in r.game.zones && r.game.zones[id] == g.zones[id]
    {
      assert id !in IdsOf(copies);
    }
  }
}

=== FILE: entities.dfy ===
/**
 * The entity/zone/attribute data model shared by the spell utilities.
 *
 * Every entity is identified by an integer id that is unique within one game.
 * Zone membership is kept OUTSIDE the entities, in a map from entity id to zone,
 * so that each entity is in exactly one zone by construction.
 */
module Entities {

  /** A lightweight lookup key for an entity: never the entity itself. */
  datatype EntityReference = EntityReference(id: int)

  /** The sentinel reference `EntityReference.NONE`, used where no entity is meant. */
  const NoneReference := EntityReference(-1)

  /** The zones an entity can be in; `Nowhere` is the zone of an entity not yet placed. */
  datatype Zone =
    | Nowhere | Hand | Deck | Battlefield | Graveyard | Discover | RemovedFromPlay
    | SetAside | WeaponZone | HeroZone | HeroPowerZone | Secret

  datatype EntityType = AnyType | CardType | HeroType | MinionType | PlayerType | WeaponType

  /** An attribute tag, by its enum constant name (e.g. "AURA_CHARGE"). */
  datatype Attribute = Attribute(name: string)

  const RandomChoices := Attribute("RANDOM_CHOICES")
  const DiedOnTurn := Attribute("DIED_ON_TURN")
  const KeepsEnchantments := Attribute("KEEPS_ENCHANTMENTS")
  const Poisonous := Attribute("POISONOUS")
  const Lifesteal := Attribute("LIFESTEAL")
  const Windfury := Attribute("WINDFURY")
  const AttackBonus := Attribute("ATTACK_BONUS")
  const HpBonus := Attribute("HP_BONUS")

  /**
   * One entity of the newer engine: a card, minion, hero, weapon or player.
   * `cardId` is the catalogue id of the card the entity comes from, `destroyed`
   * is what `Actor.isDestroyed()` reports, and `attributes` is its attribute map
   * with integer values (booleans stored as 1).
   */
  datatype Entity = Entity(
    id: int,
    owner: int,
    entityType: EntityType,
    cardId: string,
    destroyed: bool,
    attributes: map<Attribute, int>)
  {
    function Reference(): EntityReference {
      EntityReference(id)
    }

    predicate HasAttribute(a: Attribute) {
      a in attributes
    }

    /** `getAttributeValue`: the stored value, 0 when the attribute is absent. */
    function AttributeValue(a: Attribute): int {
      if a in attributes then attributes[a] else 0
    }
  }

  /** The zone of entity `id`; an id absent from the map is in no zone yet. */
  function ZoneOf(zones: map<int, Zone>, id: int): Zone {
    if id in zones then zones[id] else Nowhere
  }
}

=== FILE: events.dfy ===
/**
 * The game events the trigger model needs: an attribute-applied event and the
 * discard event. A `GameEvent` of the source carries a target player id and a
 * source player id (in that constructor order) besides its own payload.
 */
module Events {
  import opened Entities

  datatype GameEventType = AttributeApplied | Discard

  datatype GameEvent =
    | AttributeAppliedEvent(targetPlayerId: int, sourcePlayerId: int, target: Entity, attribute: Attribute)
    /** `DiscardEvent`: `card` is final, so a discard event keeps the card it was made with. */
    | DiscardEvent(targetPlayerId: int, sourcePlayerId: int, card: Entity)

  function EventType(e: GameEvent): GameEventType {
    match e
    case AttributeAppliedEvent(_, _, _, _) => AttributeApplied
    case DiscardEvent(_, _, _) => Discard
  }

  /** `getEventTarget`. */
  function EventTarget(e: GameEvent): Entity {
    match e
    case AttributeAppliedEvent(_, _, target, _) => target
    case DiscardEvent(_, _, card) => card
  }

  /** `isClientInterested`: only the discard event overrides the base answer (false). */
  predicate ClientInterested(e: GameEvent) {
    e.DiscardEvent?
  }

  /**
   * `new DiscardEvent(context, playerId, card)`: a DISCARD event aimed at `playerId`
   * with no source player (-1), whose target is the discarded card itself, and which
   * clients are told about.
   */
  function NewDiscardEvent(playerId: int, card: Entity): (e: GameEvent)
    ensures EventType(e) == Discard
    ensures EventTarget(e) == card
    ensures e.targetPlayerId == playerId && e.sourcePlayerId == -1
    ensures ClientInterested(e)
  {
    DiscardEvent(playerId, -1, card)
  }

  /** Two discard events agree on their target exactly when they were made with the same card. */
  lemma DiscardTargetIsTheCard(playerId: int, card: Entity, other: Entity)
    ensures EventTarget(NewDiscardEvent(playerId, card)) == EventTarget(NewDiscardEvent(playerId, other)) <==> card == other
  {
  }
}

=== FILE: heroes.dfy ===
/**
 * `Hero` of the older engine: armor, attack with an equipped weapon, weapon
 * ownership and deep cloning.
 *
 * A hero points to its weapon and hero power, which are mutable objects of their
 * own in the source (`setWeapon` changes the weapon's owner). They live here in an
 * arena keyed by object identity, so that sharing and copying are visible: `clone`
 * must allocate new weapon and hero-power objects rather than share the original's.
 * Arithmetic on `int` fields is Java's 32-bit arithmetic.
 */
module Heroes {
  import opened Wrappers
  import opened Entities

  const Int32Min: int := -0x8000_0000
  const Int32Max: int := 0x7fff_ffff

  predicate IsInt32(x: int) {
    Int32Min <= x <= Int32Max
  }

  /** Java's wrap-around of an `int` result. */
  function Wrap32(x: int): (r: int)
    ensures IsInt32(r)
    ensures IsInt32(x) ==> r == x
  {
    (x - Int32Min) % 0x1_0000_0000 + Int32Min
  }

  datatype HeroClass = Any | Druid | Hunter | Mage | Paladin | Priest | Rogue | Shaman | Warlock | Warrior

  datatype Weapon = Weapon(name: string, attack: int, owner: int)

  datatype HeroPower = HeroPower(name: string, manaCost: int)

  /**
   * A hero: `baseAttack` is the attack the entity itself has (`super.getAttack()`),
   * `armor` its ARMOR tag; `heroPower` and `weapon` are arena keys.
   */
  datatype Hero = Hero(
    name: string,
    heroClass: HeroClass,
    owner: int,
    baseAttack: int,
    armor: int,
    heroPower: nat,
    weapon: Option<nat>)

  /** The weapon and hero-power objects, keyed by identity; `next` is the next unused key. */
  datatype Arena = Arena(weapons: map<nat, Weapon>, powers: map<nat, HeroPower>, next: nat)

  ghost predicate ArenaAllocated(arena: Arena) {
    && (forall k :: k in arena.weapons ==> k < arena.next)
    && (forall k :: k in arena.powers ==> k < arena.next)
  }

  /** The hero's objects exist and its numbers are Java ints. */
  ghost predicate Valid(arena: Arena, h: Hero) {
    && ArenaAllocated(arena)
    && h.heroPower in arena.powers
    && (h.weapon.Some? ==> h.weapon.value in arena.weapons && IsInt32(arena.weapons[h.weapon.value].attack))
    && IsInt32(h.baseAttack) && IsInt32(h.armor)
  }

  /** `getEntityType`. */
  function EntityTypeOf(h: Hero): EntityType {
    HeroType
  }

  /**
   * `modifyArmor`: armor moves by `delta` but never below zero; nothing else of the
   * hero changes. The sum is a 32-bit `int` sum.
   */
  function ModifyArmor(h: Hero, delta: int): (r: Hero)
    requires IsInt32(delta)
    ensures r.armor >= 0
    ensures r == h.(armor := r.armor)
  {
    var newArmor := Wrap32(h.armor + delta);
    h.(armor := if newArmor > 0 then newArmor else 0)
  }

  /** Without overflow, armor becomes `max(armor + delta, 0)`. */
  lemma ModifyArmorClampsAtZero(h: Hero, delta: int)
    requires IsInt32(delta) && IsInt32(h.armor + delta)
    ensures h.armor + delta >= 0 ==> ModifyArmor(h, delta).armor == h.armor + delta
    ensures h.armor + delta < 0 ==> ModifyArmor(h, delta).armor == 0
  {
  }

  /** `getAttack`: the hero's own attack plus the equipped weapon's attack. */
  function GetAttack(arena: Arena, h: Hero): (r: int)
    requires Valid(arena, h)
    ensures IsInt32(r)
    ensures h.weapon.None? ==> r == h.baseAttack
    ensures h.weapon.Some? && IsInt32(h.baseAttack + arena.weapons[h.weapon.value].attack) ==>
      r == h.baseAttack + arena.weapons[h.weapon.value].attack
  {
    if h.weapon.Some? then Wrap32(h.baseAttack + arena.weapons[h.weapon.value].attack) else h.baseAttack
  }

  /**
   * `setWeapon`: the hero now holds `w`; a weapon taken over gets the hero's owner,
   * and no other object changes. Clearing the weapon changes only the hero.
   */
  function SetWeapon(arena: Arena, h: Hero, w: Option<nat>): (r: (Arena, Hero))
    requires w.Some? ==> w.value in arena.weapons
    ensures r.1 == h.(weapon := w)
    ensures w.None? ==> r.0 == arena
    ensures w.Some? ==>
      && r.0.weapons.Keys == arena.weapons.Keys
      && r.0.weapons[w.value] == arena.weapons[w.value].(owner := h.owner)
      && (forall k :: k in arena.weapons && k != w.value ==> r.0.weapons[k] == arena.weapons[k])
      && r.0.powers == arena.powers && r.0.next == arena.next
  {
    if w.Some? then
      (arena.(weapons := arena.weapons[w.value := arena.weapons[w.value].(owner := h.owner)]), h.(weapon := w))
    else
      (arena, h.(weapon := w))
  }

  /**
   * `clone`: the same hero over new copies of its weapon (if any) and hero power.
   * The copies are equal in value (the weapon owned by the hero's owner), live under
   * keys that were unused, and every existing object is left as it was.
   */
  function Clone(arena: Arena, h: Hero): (r: (Arena, Hero))
    requires Valid(arena, h)
    ensures Valid(r.0, r.1)
    ensures r.1 == h.(heroPower := r.1.heroPower, weapon := r.1.weapon)
    ensures r.1.heroPower !in arena.powers && r.0.powers[r.1.heroPower] == arena.powers[h.heroPower]
    ensures r.1.weapon.Some? <==> h.weapon.Some?
    ensures h.weapon.Some? ==>
      r.1.weapon.value !in arena.weapons &&
      r.0.weapons[r.1.weapon.value] == arena.weapons[h.weapon.value].(owner := h.owner)
    ensures forall k :: k in arena.weapons ==> k in r.0.weapons && r.0.weapons[k] == arena.weapons[k]
    ensures forall k :: k in arena.powers ==> k in r.0.powers && r.0.powers[k] == arena.powers[k]
  {
    var withWeapon :=
      if h.weapon.Some? then
        var key := arena.next;
        var copied := arena.(weapons := arena.weapons[key := arena.weapons[h.weapon.value]], next := key + 1);
        SetWeapon(copied, h, Some(key))
      else
        (arena, h);
    var objects := withWeapon.0;
    var key := objects.next;
    var power := objects.powers[h.heroPower];
    (objects.(powers := objects.powers[key := power], next := key + 1), withWeapon.1.(heroPower := key))
  }

  /**
   * A clone is independent of its original: whatever is done to the clone's weapon
   * object, the original's weapon and attack stay as they were.
   */
  lemma CloneIsIndependent(arena: Arena, h: Hero, changed: Weapon)
    requires Valid(arena, h)
    requires Clone(arena, h).1.weapon.Some?
    ensures var (objects, copy) := Clone(arena, h);
      var after := objects.(weapons := objects.weapons[copy.weapon.value := changed]);
      && after.weapons[h.weapon.value] == arena.weapons[h.weapon.value]
      && Valid(after, h)
      && GetAttack(after, h) == GetAttack(arena, h)
  {
  }

  /** The hero class (a final field) and the entity type are the same after every operation. */
  lemma ClassAndTypeAreFixed(arena: Arena, h: Hero, delta: int, w: Option<nat>)
    requires Valid(arena, h) && IsInt32(delta) && (w.Some? ==> w.value in arena.weapons)
    ensures ModifyArmor(h, delta).heroClass == h.heroClass
    ensures SetWeapon(arena, h, w).1.heroClass == h.heroClass
    ensures Clone(arena, h).1.heroClass == h.heroClass
    ensures EntityTypeOf(ModifyArmor(h, delta)) == EntityTypeOf(h) == HeroType
  {
  }
}

=== FILE: lists.dfy ===
/**
 * Order-preserving filtering and duplicate counting over sequences: the shared
 * reference definitions behind the list helpers of the spell utilities.
 */
module Lists {

  /** `a` can be obtained from `b` by deleting elements, keeping the order of the rest. */
  ghost predicate IsSubsequence<T>(a: seq<T>, b: seq<T>)
    decreases |b|
  {
    if a == [] then true
    else if b == [] then false
    else (a[0] == b[0] && IsSubsequence(a[1..], b[1..])) || IsSubsequence(a, b[1..])
  }

  /** No element occurs twice. */
  ghost predicate NoDuplicates<T>(s: seq<T>) {
    forall i, j :: 0 <= i < j < |s| ==> s[i] != s[j]
  }

  /**
   * The elements of `xs` that satisfy `keep`, in their original order: an element
   * is kept exactly when it occurs in `xs` and satisfies `keep`.
   */
  function Filter<T>(xs: seq<T>, keep: T -> bool): (r: seq<T>)
    ensures |r| <= |xs|
    ensures forall x :: x in r ==> x in xs && keep(x)
    ensures forall x :: x in xs && keep(x) ==> x in r
  {
    if xs == [] then []
    else
      var rest := Filter(xs[1..], keep);
      assert xs == [xs[0]] + xs[1..];
      if keep(xs[0]) then [xs[0]] + rest else rest
  }

  /** Every kept element occurs exactly as often as in `xs`; no other element occurs. */
  lemma {:induction false} FilterCounts<T>(xs: seq<T>, keep: T -> bool)
    ensures forall x :: multiset(Filter(xs, keep))[x] == if keep(x) then multiset(xs)[x] else 0
  {
    if xs != [] {
      FilterCounts(xs[1..], keep);
      assert xs == [xs[0]] + xs[1..];
    }
  }

  /** The kept elements keep their relative order. */
  lemma {:induction false} FilterIsSubsequence<T>(xs: seq<T>, keep: T -> bool)
    ensures IsSubsequence(Filter(xs, keep), xs)
  {
    if xs != [] {
      FilterIsSubsequence(xs[1..], keep);
      var r := Filter(xs, keep);
      if keep(xs[0]) {
        assert r[0] == xs[0] && r[1..] == Filter(xs[1..], keep);
      }
    }
  }

  /** A filter that keeps every element of `xs` returns `xs` itself. */
  lemma {:induction false} FilterKeepingAll<T>(xs: seq<T>, keep: T -> bool)
    requires forall x :: x in xs ==> keep(x)
    ensures Filter(xs, keep) == xs
  {
    if xs != [] {
      FilterKeepingAll(xs[1..], keep);
    }
  }

  /** A one-element list is kept or dropped whole. */
  lemma FilterSingleton<T>(x: T, keep: T -> bool)
    ensures Filter([x], keep) == if keep(x) then [x] else []
  {
    var xs := [x];
    assert xs[0] == x && xs[1..] == [];
    assert Filter(xs[1..], keep) == [];
  }

  /** Filtering a concatenation filters each part. */
  lemma {:induction false} FilterAppend<T>(a: seq<T>, b: seq<T>, keep: T -> bool)
    ensures Filter(a + b, keep) == Filter(a, keep) + Filter(b, keep)
  {
    if a == [] {
      assert a + b == b;
    } else {
      assert (a + b)[1..] == a[1..] + b;
      FilterAppend(a[1..], b, keep);
    }
  }

  /** Filtering one more element adds one to the count exactly when it is kept. */
  lemma FilterSnocCount<T>(xs: seq<T>, x: T, keep: T -> bool)
    ensures |Filter(xs + [x], keep)| == |Filter(xs, keep)| + if keep(x) then 1 else 0
  {
    FilterAppend(xs, [x], keep);
    assert [x][1..] == [];
  }

  /** The number of distinct elements, as `stream().distinct().count()` computes it. */
  function CountDistinct<T(==)>(s: seq<T>): (n: nat)
    ensures n == |set x | x in s|
    ensures n <= |s|
    ensures n == |s| <==> NoDuplicates(s)
  {
    if s == [] then
      assert (set x | x in s) == {};
      0
    else
      var init := s[..|s| - 1];
      var last := s[|s| - 1];
      var m := CountDistinct(init);
      assert s == init + [last];
      assert (set x | x in s) == (set x | x in init) + {last};
      if last in init then
        var k :| 0 <= k < |init| && init[k] == last;
        assert s[k] == s[|s| - 1];
        assert (set x | x in s) == (set x | x in init);
        m
      else
        assert NoDuplicates(init) ==> NoDuplicates(s) by {
          if NoDuplicates(init) {
            forall i, j | 0 <= i < j < |s| ensures s[i] != s[j] {
              if j < |s| - 1 {
                assert s[i] == init[i] && s[j] == init[j];
              } else {
                assert s[i] == init[i];
              }
            }
          }
        }
        assert NoDuplicates(s) ==> NoDuplicates(init) by {
          if NoDuplicates(s) {
            forall i, j | 0 <= i < j < |init| ensures init[i] != init[j] {
              assert init[i] == s[i] && init[j] == s[j];
            }
          }
        }
        m + 1
  }

  /** The concatenation of a list of lists (Java's `flatMap` over players). */
  function Flatten<T>(xss: seq<seq<T>>): (r: seq<T>)
    ensures forall xs, x :: xs in xss && x in xs ==> x in r
  {
    if xss == [] then [] else xss[0] + Flatten(xss[1..])
  }
}

=== FILE: operations.dfy ===
/**
 * `SpellUtils.evaluateOperation`: the integer comparison a filter applies between
 * an actual value and a target value.
 */
module Operations {

  datatype Operation = Equal | Greater | GreaterOrEqual | Has | Less | LessOrEqual

  /** The sign of `a - b`: -1, 0 or 1. */
  function Compare(a: int, b: int): int {
    if a < b then -1 else if a == b then 0 else 1
  }

  /** The outcomes of `Compare(actual, target)` each comparing operation accepts. */
  function Accepts(op: Operation): set<int> {
    match op
    case Equal => {0}
    case Greater => {1}
    case GreaterOrEqual => {0, 1}
    case Less => {-1}
    case LessOrEqual => {-1, 0}
    case Has => {}
  }

  /**
   * Every comparing operation holds exactly when the three-way comparison of actual
   * against target is one it accepts; HAS ignores the target and asks for a
   * positive actual value.
   */
  function EvaluateOperation(op: Operation, actual: int, target: int): (r: bool)
    ensures op != Has ==> (r <==> Compare(actual, target) in Accepts(op))
    ensures op == Has ==> (r <==> actual > 0)
  {
    match op
    case Equal => actual == target
    case Greater => actual > target
    case GreaterOrEqual => actual >= target
    case Has => actual > 0
    case Less => actual < target
    case LessOrEqual => actual <= target
  }

  /** LESS and GREATER_OR_EQUAL, and LESS_OR_EQUAL and GREATER, are complements. */
  lemma ComplementaryOperations(actual: int, target: int)
    ensures EvaluateOperation(Less, actual, target) == !EvaluateOperation(GreaterOrEqual, actual, target)
    ensures EvaluateOperation(LessOrEqual, actual, target) == !EvaluateOperation(Greater, actual, target)
  {
  }

  /** Swapping the operands turns GREATER into LESS; EQUAL is symmetric. */
  lemma MirroredOperations(actual: int, target: int)
    ensures EvaluateOperation(Greater, actual, target) == EvaluateOperation(Less, target, actual)
    ensures EvaluateOperation(GreaterOrEqual, actual, target) == EvaluateOperation(LessOrEqual, target, actual)
    ensures EvaluateOperation(Equal, actual, target) == EvaluateOperation(Equal, target, actual)
  {
  }

  /** HAS does not look at the target value. */
  lemma HasIgnoresTarget(actual: int, t1: int, t2: int)
    ensures EvaluateOperation(Has, actual, t1) == EvaluateOperation(Has, actual, t2)
  {
  }
}

=== FILE: oracle.dfy ===
/**
 * The engine's two sources of outside information, as oracles: the random number
 * stream behind `GameLogic.random`, `getRandom` and `removeRandom`, and the
 * player-decision boundary behind `requestAction`.
 *
 * `rolls(k)` is the k-th raw random value and `answers(k)` the k-th raw answer of
 * the player; `rolled` and `asked` count how many of each have been consumed.
 * Every lemma stated over an arbitrary oracle therefore holds for every possible
 * sequence of random draws and player decisions.
 */
module Oracle {

  datatype Oracle = Oracle(rolls: nat -> nat, answers: nat -> nat, rolled: nat, asked: nat)

  /** Same streams, same position: nothing was drawn and nothing was asked. */
  ghost predicate Untouched(before: Oracle, after: Oracle) {
    && after.rolls == before.rolls && after.answers == before.answers
    && after.rolled == before.rolled && after.asked == before.asked
  }

  /** Exactly `draws` random values were drawn and nothing was asked. */
  ghost predicate Drew(before: Oracle, after: Oracle, draws: nat) {
    && after.rolls == before.rolls && after.answers == before.answers
    && after.rolled == before.rolled + draws && after.asked == before.asked
  }

  /** Exactly one decision was requested from the player and nothing was drawn. */
  ghost predicate AskedOnce(before: Oracle, after: Oracle) {
    && after.rolls == before.rolls && after.answers == before.answers
    && after.rolled == before.rolled && after.asked == before.asked + 1
  }

  /** `random(n)`: a uniformly drawn index below `n`. */
  function Random(o: Oracle, n: nat): (r: (nat, Oracle))
    requires n > 0
    ensures r.0 < n
    ensures Drew(o, r.1, 1)
  {
    (o.rolls(o.rolled) % n, o.(rolled := o.rolled + 1))
  }

  /** `requestAction`: the index of the option the player picks among `n`. */
  function Request(o: Oracle, n: nat): (r: (nat, Oracle))
    requires n > 0
    ensures r.0 < n
    ensures AskedOnce(o, r.1)
  {
    (o.answers(o.asked) % n, o.(asked := o.asked + 1))
  }
}

=== FILE: random_play.dfy ===
/**
 * `SpellUtils.playCardRandomly`: playing a card with every choice made by the
 * random number stream: the choose-one option, the board slot of a minion, the
 * target of a battlecry and the target of a spell or hero power.
 *
 * The two "no valid target" policies are kept apart, as the source intends: a
 * targeted spell or hero power without targets counts as played but executes
 * nothing, while a battlecry without targets is dropped and the actor is still
 * played.
 *
 * `Card.play`, `playOptions`, `playBothOptions`, `actor`, `isActor`, `isSpell` and
 * `isHeroPower` appear as fields of the card; `GameLogic.getValidTargets` is an
 * uninterpreted function of the table; executing the action is recorded, not run.
 */
module RandomPlay {
  import opened Wrappers
  import opened Entities
  import opened Oracle

  /** `TargetSelection`; `Untargeted` is its NONE constant. */
  datatype TargetSelection =
    | Untargeted | AnyCharacter | EnemyCharacters | FriendlyCharacters
    | Minions | EnemyMinions | FriendlyMinions | OtherSelection

  /** A target requirement that is neither null nor NONE. */
  predicate NeedsTarget(requirement: Option<TargetSelection>) {
    requirement.Some? && requirement.value != Untargeted
  }

  datatype Battlecry = Battlecry(effect: string, requirement: Option<TargetSelection>, target: Option<EntityReference>)

  /** The battlecry of an actor's play action: `Unset` is null, `Cleared` is `BattlecryAction.NONE`. */
  datatype BattlecrySlot = Unset | Cleared | Slot(battlecry: Battlecry)

  /** A `PlayCardAction` (clones are values here). */
  datatype PlayCardAction = PlayCardAction(
    name: string,
    requirement: Option<TargetSelection>,
    target: Option<EntityReference>,
    battlecry: BattlecrySlot)

  datatype CardKind = MinionCard | WeaponCard | HeroCard | SpellCard | HeroPowerCard | ChooseOneCard | OtherCard

  /** The actor a card would put into play, with its battlecry (null when it has none). */
  datatype ActorInfo = ActorInfo(battlecry: Option<Battlecry>)

  datatype Card = Card(
    kind: CardKind,
    isActor: bool,
    isSpell: bool,
    isHeroPower: bool,
    isChooseOne: bool,
    choice: Option<int>,                  // the CHOICE attribute
    playedFromHandOrDeck: bool,           // PLAYED_FROM_HAND_OR_DECK is present
    play: Option<PlayCardAction>,         // card.play()
    options: seq<PlayCardAction>,         // card.playOptions()
    bothOptions: Option<PlayCardAction>,  // card.playBothOptions()
    actor: Option<ActorInfo>)             // card.actor()

  /**
   * The game as `playCardRandomly` reads it: the player, the casting player and
   * whether the source is in play (both from `determineCastingPlayer`), whether the
   * player has BOTH_CHOOSE_ONE_OPTIONS, the player's minions from left to right,
   * and the valid targets of an action for a player.
   */
  datatype Table = Table(
    playerId: int,
    castingPlayerId: int,
    sourceInPlay: bool,
    bothChooseOneOptions: bool,
    minions: seq<EntityReference>,
    validTargets: (int, PlayCardAction) -> seq<EntityReference>)

  datatype Flags = Flags(
    summonRightmost: bool,
    resolveBattlecry: bool,
    onlyWhileSourceInPlay: bool,
    randomChooseOnes: bool,
    playFromHand: bool)

  /** The action executed, by whom, and whether through `execute` (from hand) or `innerExecute`. */
  datatype Execution = Execution(action: PlayCardAction, playerId: int, fromHand: bool)

  /**
   * How a random play ends: it returns (whether it counts as played, the execution
   * performed if any, the ids of the entities that carry RANDOM_CHOICES afterwards,
   * and the oracle after every draw made), or it throws while indexing the options
   * of a choose-one card, with RANDOM_CHOICES already put on the player.
   */
  datatype PlayOutcome =
    | PlayOutcome(played: bool, executed: Option<Execution>, randomChoices: set<int>, oracle: Oracle)
    | Threw(randomChoices: set<int>)

  /** The choose-one branch of a card that is not played with both options. */
  predicate ChoosesRandomly(card: Card, flags: Flags) {
    flags.randomChooseOnes || (card.choice.None? && card.playedFromHandOrDeck)
  }

  /**
   * The action picked for the card (null when none), or an array index the source
   * cannot take: `random(0)` on a card without options, or a CHOICE outside them.
   */
  datatype ChoiceStep = Chosen(action: Option<PlayCardAction>, oracle: Oracle) | IndexOutOfBounds

  /**
   * The action to play: `play()` for an ordinary card; for a choose-one card the
   * both-options action, a random option, or the option recorded in CHOICE, or
   * nothing when no choice was made and the card was not played from hand or deck.
   */
  function ChooseAction(t: Table, card: Card, flags: Flags, o: Oracle): (r: ChoiceStep)
    ensures !card.isChooseOne ==> r.Chosen? && r.action == card.play && Untouched(o, r.oracle)
    ensures card.isChooseOne && t.bothChooseOneOptions ==>
      r.Chosen? && r.action == card.bothOptions && Untouched(o, r.oracle)
    ensures card.isChooseOne && !t.bothChooseOneOptions && ChoosesRandomly(card, flags) ==>
      && (r.IndexOutOfBounds? <==> card.options == [])
      && (r.Chosen? ==> r.action.Some? && r.action.value in card.options && Drew(o, r.oracle, 1))
    ensures card.isChooseOne && !t.bothChooseOneOptions && !ChoosesRandomly(card, flags) && card.choice.None? ==>
      r.Chosen? && r.action.None? && Untouched(o, r.oracle)
    ensures card.isChooseOne && !t.bothChooseOneOptions && !ChoosesRandomly(card, flags) && card.choice.Some? ==>
      && (r.IndexOutOfBounds? <==> !(0 <= card.choice.value < |card.options|))
      && (r.Chosen? ==> r.action == Some(card.options[card.choice.value]) && Untouched(o, r.oracle))
  {
    if card.isChooseOne then
      if t.bothChooseOneOptions then
        Chosen(card.bothOptions, o)
      else if ChoosesRandomly(card, flags) then
        if card.options == [] then IndexOutOfBounds
        else
          var pick := Random(o, |card.options|);
          Chosen(Some(card.options[pick.0]), pick.1)
      else if card.choice.Some? then
        if 0 <= card.choice.value < |card.options| then Chosen(Some(card.options[card.choice.value]), o)
        else IndexOutOfBounds
      else
        Chosen(None, o)
    else
      Chosen(card.play, o)
  }

  /**
   * The board slot of a minion summoned at a random position: one draw among the
   * minion count plus one; the last value keeps the rightmost default, any other
   * value aims the action at that minion.
   */
  function PlaceOnBoard(t: Table, card: Card, flags: Flags, action: PlayCardAction, o: Oracle)
    : (r: (PlayCardAction, Oracle))
    ensures r.0 == action.(target := r.0.target)
    ensures !flags.summonRightmost && card.kind == MinionCard ==>
      Drew(o, r.1, 1) && (r.0.target == action.target || (r.0.target.Some? && r.0.target.value in t.minions))
    ensures flags.summonRightmost || card.kind != MinionCard ==> r.0 == action && Untouched(o, r.1)
  {
    if !flags.summonRightmost && card.kind == MinionCard then
      var count := |t.minions|;
      var pick := Random(o, count + 1);
      if pick.0 == count then (action, pick.1)
      else (action.(target := Some(t.minions[pick.0])), pick.1)
    else
      (action, o)
  }

  datatype BattlecryStep = MissingActor | Resolved(action: PlayCardAction, oracle: Oracle)

  /**
   * The battlecry to resolve (`specifiedAction`): the action's own when it has one
   * (none when it was cleared), otherwise the one of the actor the card summons.
   */
  function SpecifiedBattlecry(card: Card, action: PlayCardAction): Option<Battlecry>
    requires action.battlecry.Unset? ==> card.actor.Some?
  {
    match action.battlecry
    case Unset => card.actor.value.battlecry
    case Cleared => None
    case Slot(b) => Some(b)
  }

  /**
   * Battlecry handling of an actor's action. Without `resolveBattlecry` it is always
   * cleared. Otherwise the battlecry is the action's own, or the actor's when the
   * action has none (a missing actor ends the play); one that needs a target gets a
   * random valid target of the casting player, or is cleared when there is none.
   */
  function ResolveBattlecry(t: Table, card: Card, flags: Flags, action: PlayCardAction, o: Oracle)
    : (r: BattlecryStep)
    ensures r.MissingActor? <==> flags.resolveBattlecry && action.battlecry.Unset? && card.actor.None?
    ensures r.Resolved? ==> r.action == action.(battlecry := r.action.battlecry)
    ensures !flags.resolveBattlecry ==> r.Resolved? && r.action.battlecry == Cleared && Untouched(o, r.oracle)
    ensures flags.resolveBattlecry && r.Resolved? ==>
      var specified := SpecifiedBattlecry(card, action);
      && (specified.None? || !NeedsTarget(specified.value.requirement) ==>
            r.action == action && Untouched(o, r.oracle))
      && (specified.Some? && NeedsTarget(specified.value.requirement) &&
          t.validTargets(t.castingPlayerId, action) == [] ==>
            r.action.battlecry == Cleared && Untouched(o, r.oracle))
      && (specified.Some? && NeedsTarget(specified.value.requirement) &&
          t.validTargets(t.castingPlayerId, action) != [] ==>
            && r.action.battlecry.Slot?
            && r.action.battlecry.battlecry == specified.value.(target := r.action.battlecry.battlecry.target)
            && r.action.battlecry.battlecry.target.Some?
            && r.action.battlecry.battlecry.target.value in t.validTargets(t.castingPlayerId, action)
            && Drew(o, r.oracle, 1))
  {
    if !flags.resolveBattlecry then
      Resolved(action.(battlecry := Cleared), o)
    else if action.battlecry.Unset? && card.actor.None? then
      MissingActor
    else
      var specified := SpecifiedBattlecry(card, action);
      if specified.Some? && NeedsTarget(specified.value.requirement) then
        var targets := t.validTargets(t.castingPlayerId, action);
        if targets == [] then
          Resolved(action.(battlecry := Cleared), o)
        else
          var pick := Random(o, |targets|);
          Resolved(action.(battlecry := Slot(specified.value.(target := Some(targets[pick.0])))), pick.1)
      else
        Resolved(action, o)
  }

  datatype SpellStep = Fizzled | Aimed(action: PlayCardAction, oracle: Oracle)

  /**
   * Targeting of a spell or hero power: one that needs a target gets a random valid
   * target of the player, or fizzles when there is none; any other is played as is.
   */
  function ResolveSpellTarget(t: Table, action: PlayCardAction, o: Oracle): (r: SpellStep)
    ensures r.Fizzled? <==> NeedsTarget(action.requirement) && t.validTargets(t.playerId, action) == []
    ensures r.Aimed? && NeedsTarget(action.requirement) ==>
      && r.action == action.(target := r.action.target)
      && r.action.target.Some? && r.action.target.value in t.validTargets(t.playerId, action)
      && Drew(o, r.oracle, 1)
    ensures r.Aimed? && !NeedsTarget(action.requirement) ==> r.action == action && Untouched(o, r.oracle)
  {
    if NeedsTarget(action.requirement) then
      var targets := t.validTargets(t.playerId, action);
      if targets == [] then Fizzled
      else
        var pick := Random(o, |targets|);
        Aimed(action.(target := Some(targets[pick.0])), pick.1)
    else
      Aimed(action, o)
  }

  /** Executing the prepared action, then lifting RANDOM_CHOICES from the player. */
  function Execute(t: Table, flags: Flags, action: PlayCardAction, flagged: set<int>, o: Oracle): PlayOutcome {
    PlayOutcome(true, Some(Execution(action, t.playerId, flags.playFromHand)), flagged - {t.playerId}, o)
  }

  /**
   * `playCardRandomly(context, player, card, source, summonRightmost,
   * resolveBattlecry, onlyWhileSourceInPlay, randomChooseOnes, playFromHand)`, with
   * `randomChoices` the entities carrying RANDOM_CHOICES beforehand.
   */
  function PlayCardRandomly(t: Table, randomChoices: set<int>, card: Card, flags: Flags, o: Oracle)
    : (r: PlayOutcome)
    ensures r.Threw? ==> card.isChooseOne && r.randomChoices == randomChoices + {t.playerId}
    ensures r.PlayOutcome? && !r.played ==> r.executed.None?
    ensures r.PlayOutcome? && r.executed.Some? ==>
      && r.played
      && r.executed.value.playerId == t.playerId
      && r.executed.value.fromHand == flags.playFromHand
      && r.randomChoices == randomChoices - {t.playerId}
    ensures r.PlayOutcome? && r.played && r.executed.None? ==>
      && !card.isActor && (card.isSpell || card.isHeroPower) && r.randomChoices == randomChoices + {t.playerId}
      && var c := ChooseAction(t, card, flags, o);
      && c.Chosen? && c.action.Some?
      && NeedsTarget(c.action.value.requirement) && t.validTargets(t.playerId, c.action.value) == []
    ensures r.PlayOutcome? && r.executed.None? ==>
      r.randomChoices == randomChoices || r.randomChoices == randomChoices + {t.playerId}
  {
    if flags.onlyWhileSourceInPlay && !t.sourceInPlay then
      PlayOutcome(false, None, randomChoices, o)
    else
      var flagged := randomChoices + {t.playerId};
      match ChooseAction(t, card, flags, o)
      case IndexOutOfBounds => Threw(flagged)
      case Chosen(None, o1) => PlayOutcome(false, None, flagged, o1)
      case Chosen(Some(chosen), o1) =>
        if card.isActor then
          var placed := PlaceOnBoard(t, card, flags, chosen, o1);
          match ResolveBattlecry(t, card, flags, placed.0, placed.1)
          case MissingActor => PlayOutcome(false, None, flagged, placed.1)
          case Resolved(action, o') => Execute(t, flags, action, flagged, o')
        else if card.isSpell || card.isHeroPower then
          match ResolveSpellTarget(t, chosen, o1)
          case Fizzled => PlayOutcome(true, None, flagged, o1)
          case Aimed(action, o') => Execute(t, flags, action, flagged, o')
        else
          PlayOutcome(false, None, flagged, o1)
  }

  /** The play gets past the source check: `onlyWhileSourceInPlay` is off or the source is in play. */
  predicate Proceeds(t: Table, flags: Flags) {
    !(flags.onlyWhileSourceInPlay && !t.sourceInPlay)
  }

  /** With `onlyWhileSourceInPlay` and the source gone, nothing happens at all. */
  lemma SourceOutOfPlayDoesNothing(t: Table, randomChoices: set<int>, card: Card, flags: Flags, o: Oracle)
    requires !Proceeds(t, flags)
    ensures var r := PlayCardRandomly(t, randomChoices, card, flags, o);
      r.PlayOutcome? && !r.played && r.executed.None? && r.randomChoices == randomChoices && Untouched(o, r.oracle)
  {
  }

  /** When no action is produced, the play fails and RANDOM_CHOICES stays on the player. */
  lemma NoActionLeavesFlagSet(t: Table, randomChoices: set<int>, card: Card, flags: Flags, o: Oracle)
    requires Proceeds(t, flags)
    requires ChooseAction(t, card, flags, o).Chosen? && ChooseAction(t, card, flags, o).action.None?
    ensures var r := PlayCardRandomly(t, randomChoices, card, flags, o);
      r.PlayOutcome? && !r.played && r.executed.None? && t.playerId in r.randomChoices
  {
  }

  /**
   * A choose-one card whose options cannot be indexed (no options to draw from, or
   * a CHOICE outside them) makes the play throw, with RANDOM_CHOICES left on the player.
   */
  lemma BadOptionIndexThrows(t: Table, randomChoices: set<int>, card: Card, flags: Flags, o: Oracle)
    requires Proceeds(t, flags) && card.isChooseOne && !t.bothChooseOneOptions
    requires if ChoosesRandomly(card, flags) then card.options == []
             else card.choice.Some? && !(0 <= card.choice.value < |card.options|)
    ensures var r := PlayCardRandomly(t, randomChoices, card, flags, o);
      r.Threw? && t.playerId in r.randomChoices
  {
  }

  /** A card that is neither actor, spell nor hero power is never played, and RANDOM_CHOICES stays on the player. */
  lemma UnsupportedCardLeavesFlagSet(t: Table, randomChoices: set<int>, card: Card, flags: Flags, o: Oracle)
    requires Proceeds(t, flags)
    requires !card.isActor && !card.isSpell && !card.isHeroPower
    ensures var r := PlayCardRandomly(t, randomChoices, card, flags, o);
      (r.PlayOutcome? ==> !r.played && r.executed.None?) && t.playerId in r.randomChoices
  {
  }

  /** An actor whose actor object is missing while its battlecry must be resolved fails likewise. */
  lemma MissingActorLeavesFlagSet(t: Table, randomChoices: set<int>, card: Card, flags: Flags, o: Oracle)
    requires Proceeds(t, flags)
    requires card.isActor && card.actor.None? && flags.resolveBattlecry
    requires ChooseAction(t, card, flags, o).Chosen? && ChooseAction(t, card, flags, o).action.Some?
    requires ChooseAction(t, card, flags, o).action.value.battlecry.Unset?
    ensures var r := PlayCardRandomly(t, randomChoices, card, flags, o);
      r.PlayOutcome? && !r.played && r.executed.None? && t.playerId in r.randomChoices
  {
  }

  /**
   * A spell or hero power that needs a target but has none is consumed silently: the
   * play reports success, nothing is executed, and RANDOM_CHOICES is not lifted.
   */
  lemma TargetedSpellWithoutTargetsIsConsumed(
    t: Table, randomChoices: set<int>, card: Card, flags: Flags, o: Oracle, action: PlayCardAction)
    requires Proceeds(t, flags)
    requires !card.isActor && (card.isSpell || card.isHeroPower)
    requires ChooseAction(t, card, flags, o).Chosen? && ChooseAction(t, card, flags, o).action == Some(action)
    requires NeedsTarget(action.requirement) && t.validTargets(t.playerId, action) == []
    ensures var r := PlayCardRandomly(t, randomChoices, card, flags, o);
      r.PlayOutcome? && r.played && r.executed.None? && t.playerId in r.randomChoices
  {
  }

  /**
   * An actor whose battlecry (its action's own, or its actor's) needs a target while
   * the placed action has no valid target is still played, with the battlecry
   * replaced by `BattlecryAction.NONE` and nothing else of the action changed.
   */
  lemma BattlecryWithoutTargetsStillPlaysActor(
    t: Table, randomChoices: set<int>, card: Card, flags: Flags, o: Oracle, action: PlayCardAction)
    requires Proceeds(t, flags) && card.isActor && flags.resolveBattlecry
    requires ChooseAction(t, card, flags, o).Chosen? && ChooseAction(t, card, flags, o).action == Some(action)
    requires action.battlecry.Unset? ==> card.actor.Some?
    requires var placed := PlaceOnBoard(t, card, flags, action, ChooseAction(t, card, flags, o).oracle).0;
      && SpecifiedBattlecry(card, placed).Some?
      && NeedsTarget(SpecifiedBattlecry(card, placed).value.requirement)
      && t.validTargets(t.castingPlayerId, placed) == []
    ensures var r := PlayCardRandomly(t, randomChoices, card, flags, o);
      var placed := PlaceOnBoard(t, card, flags, action, ChooseAction(t, card, flags, o).oracle).0;
      && r.PlayOutcome? && r.played && r.executed.Some?
      && r.executed.value.action == placed.(battlecry := Cleared)
      && t.playerId !in r.randomChoices
  {
  }

  /**
   * An actor whose battlecry needs a target and has one is played with that
   * battlecry aimed at a valid target of the casting player.
   */
  lemma BattlecryTargetIsValid(
    t: Table, randomChoices: set<int>, card: Card, flags: Flags, o: Oracle, action: PlayCardAction)
    requires Proceeds(t, flags) && card.isActor && flags.resolveBattlecry
    requires ChooseAction(t, card, flags, o).Chosen? && ChooseAction(t, card, flags, o).action == Some(action)
    requires action.battlecry.Unset? ==> card.actor.Some?
    requires var placed := PlaceOnBoard(t, card, flags, action, ChooseAction(t, card, flags, o).oracle).0;
      && SpecifiedBattlecry(card, placed).Some?
      && NeedsTarget(SpecifiedBattlecry(card, placed).value.requirement)
      && t.validTargets(t.castingPlayerId, placed) != []
    ensures var r := PlayCardRandomly(t, randomChoices, card, flags, o);
      var placed := PlaceOnBoard(t, card, flags, action, ChooseAction(t, card, flags, o).oracle).0;
      && r.PlayOutcome? && r.played && r.executed.Some?
      && r.executed.value.action.battlecry.Slot?
      && r.executed.value.action.battlecry.battlecry.target.Some?
      && r.executed.value.action.battlecry.battlecry.target.value in t.validTargets(t.castingPlayerId, placed)
      && t.playerId !in r.randomChoices
  {
  }

  /**
   * A spell or hero power that needs no target, or has a valid one, is executed for
   * the player: its chosen action, aimed at a valid target when it needs one, and
   * RANDOM_CHOICES is lifted.
   */
  lemma SpellIsExecuted(
    t: Table, randomChoices: set<int>, card: Card, flags: Flags, o: Oracle, action: PlayCardAction)
    requires Proceeds(t, flags)
    requires !card.isActor && (card.isSpell || card.isHeroPower)
    requires ChooseAction(t, card, flags, o).Chosen? && ChooseAction(t, card, flags, o).action == Some(action)
    requires !NeedsTarget(action.requirement) || t.validTargets(t.playerId, action) != []
    ensures var r := PlayCardRandomly(t, randomChoices, card, flags, o);
      && r.PlayOutcome? && r.played && r.executed.Some?
      && r.executed.value.playerId == t.playerId && r.executed.value.fromHand == flags.playFromHand
      && r.executed.value.action == action.(target := r.executed.value.action.target)
      && (!NeedsTarget(action.requirement) ==> r.executed.value.action == action)
      && r.randomChoices == randomChoices - {t.playerId}
  {
  }

  /**
   * An actor is executed for the player unless its battlecry must be resolved from
   * a missing actor: the chosen action with at most its board slot and its
   * battlecry changed, and RANDOM_CHOICES is lifted.
   */
  lemma ActorIsExecuted(
    t: Table, randomChoices: set<int>, card: Card, flags: Flags, o: Oracle, action: PlayCardAction)
    requires Proceeds(t, flags) && card.isActor
    requires ChooseAction(t, card, flags, o).Chosen? && ChooseAction(t, card, flags, o).action == Some(action)
    requires !(flags.resolveBattlecry && action.battlecry.Unset? && card.actor.None?)
    ensures var r := PlayCardRandomly(t, randomChoices, card, flags, o);
      && r.PlayOutcome? && r.played && r.executed.Some?
      && r.executed.value.playerId == t.playerId && r.executed.value.fromHand == flags.playFromHand
      && r.executed.value.action
         == action.(target := r.executed.value.action.target, battlecry := r.executed.value.action.battlecry)
      && r.randomChoices == randomChoices - {t.playerId}
  {
  }

  /** Without `resolveBattlecry`, an actor is played with its battlecry cleared, whatever it was. */
  lemma UnresolvedBattlecryIsCleared(t: Table, randomChoices: set<int>, card: Card, flags: Flags, o: Oracle)
    requires card.isActor && !flags.resolveBattlecry
    ensures var r := PlayCardRandomly(t, randomChoices, card, flags, o);
      r.PlayOutcome? && r.executed.Some? ==> r.executed.value.action.battlecry == Cleared
  {
  }

  /** A spell or hero power that needs a target is executed only on a valid target of the player. */
  lemma SpellTargetIsValid(
    t: Table, randomChoices: set<int>, card: Card, flags: Flags, o: Oracle, action: PlayCardAction)
    requires !card.isActor && (card.isSpell || card.isHeroPower)
    requires ChooseAction(t, card, flags, o).Chosen? && ChooseAction(t, card, flags, o).action == Some(action)
    requires NeedsTarget(action.requirement)
    ensures var r := PlayCardRandomly(t, randomChoices, card, flags, o);
      r.PlayOutcome? && r.executed.Some? ==>
        && r.executed.value.action.target.Some?
        && r.executed.value.action.target.value in t.validTargets(t.playerId, action)
  {
  }
}

=== FILE: spells.dfy ===
/**
 * The declarative spell description (`SpellDesc`), reduced to the arguments the
 * spell utilities read. Each `Option` field is one `SpellArg` key: `None` when the
 * key is absent.
 */
module Spells {
  import opened Wrappers
  import opened Entities

  /** `RelativeToSource`: where a summoned minion goes relative to its source. */
  datatype RelativeToSource = Left | Right | OtherPosition

  datatype SpellDesc = SpellDesc(
    kind: string,                                    // the spell class
    target: Option<EntityReference>,                 // SpellArg.TARGET
    card: Option<string>,                            // SpellArg.CARD
    cards: Option<seq<string>>,                      // SpellArg.CARDS
    cardSource: bool,                                // SpellArg.CARD_SOURCE present
    cardFilter: bool,                                // SpellArg.CARD_FILTER present
    value: Option<int>,                              // SpellArg.VALUE, a literal
    boardPositionAbsolute: Option<int>,              // SpellArg.BOARD_POSITION_ABSOLUTE, a literal
    boardPositionRelative: Option<RelativeToSource>) // SpellArg.BOARD_POSITION_RELATIVE

  /** A spell of class `kind` with no arguments. */
  function Plain(kind: string): SpellDesc {
    SpellDesc(kind, None, None, None, false, false, None, None, None)
  }
}

=== FILE: triggers.dfy ===
/**
 * `AttributeAppliedTrigger`: a trigger that fires when a configured attribute is
 * applied to an entity, optionally only to entities of a configured type.
 */
module Triggers {
  import opened Wrappers
  import opened Entities
  import opened Events

  /** The two arguments the trigger reads; `None` is an argument that is not set. */
  datatype EventTriggerDesc = EventTriggerDesc(requiredAttribute: Option<Attribute>, targetEntityType: Option<EntityType>)

  /** `interestedIn`: the only event type this trigger is offered. */
  function InterestedIn(): (r: GameEventType)
    ensures forall e: GameEvent :: EventType(e) == r <==> e.AttributeAppliedEvent?
  {
    AttributeApplied
  }

  /** The entity-type filter: an unset type lets every target through. */
  predicate TypeMatches(wanted: Option<EntityType>, target: Entity) {
    wanted.None? || target.entityType == wanted.value
  }

  /**
   * `fire`. The source compares the event's attribute with REQUIRED_ATTRIBUTE by
   * identity, so an unset REQUIRED_ATTRIBUTE (null) never equals an event attribute.
   */
  function Fire(desc: EventTriggerDesc, e: GameEvent, host: Entity): (r: bool)
    requires e.AttributeAppliedEvent?
    ensures r ==> desc.requiredAttribute == Some(e.attribute)
    ensures r ==> desc.targetEntityType.None? || desc.targetEntityType == Some(e.target.entityType)
  {
    TypeMatches(desc.targetEntityType, e.target) && desc.requiredAttribute == Some(e.attribute)
  }

  /** Whether the trigger reacts to `e`: it is only consulted for the event type it is interested in. */
  predicate Reacts(desc: EventTriggerDesc, e: GameEvent, host: Entity) {
    EventType(e) == InterestedIn() && Fire(desc, e, host)
  }

  /** Both directions of `fire`: the attribute matches and the type filter, if set, matches. */
  lemma FireExactly(desc: EventTriggerDesc, e: GameEvent, host: Entity)
    requires e.AttributeAppliedEvent?
    ensures Fire(desc, e, host) <==>
      desc.requiredAttribute == Some(e.attribute) &&
      (desc.targetEntityType.None? || desc.targetEntityType == Some(e.target.entityType))
  {
  }

  /** The host entity plays no part in the decision. */
  lemma FireIgnoresHost(desc: EventTriggerDesc, e: GameEvent, host: Entity, other: Entity)
    requires e.AttributeAppliedEvent?
    ensures Fire(desc, e, host) == Fire(desc, e, other)
  {
  }

  /** Dropping the entity-type constraint can only turn a refusal into a firing. */
  lemma DroppingTypeOnlyWidens(desc: EventTriggerDesc, e: GameEvent, host: Entity)
    requires e.AttributeAppliedEvent?
    ensures Fire(desc, e, host) ==> Fire(desc.(targetEntityType := None), e, host)
    ensures desc.requiredAttribute == Some(e.attribute) ==> Fire(desc.(targetEntityType := None), e, host)
  {
  }

  /** Without a REQUIRED_ATTRIBUTE the trigger never fires. */
  lemma NoRequiredAttributeNeverFires(desc: EventTriggerDesc, e: GameEvent, host: Entity)
    requires e.AttributeAppliedEvent? && desc.requiredAttribute.None?
    ensures !Fire(desc, e, host)
  {
  }

  /** A discard event never sets off the trigger, whatever its configuration. */
  lemma DiscardNeverReacts(desc: EventTriggerDesc, playerId: int, card: Entity, host: Entity)
    ensures !Reacts(desc, NewDiscardEvent(playerId, card), host)
  {
  }
}

=== FILE: wrappers.dfy ===
/** Nullable values of the Java and Python sources: `None` stands for `null`. */
module Wrappers {

  datatype Option<+T> = None | Some(value: T) {

    /** The value, or `default` when absent. */
    function GetOr(default: T): T {
      match this
      case Some(v) => v
      case None => default
    }
  }
}
